=== FILE: README.md ===
# FilmTV.it lists as addon catalogs — a Dafny model

The addon (index.js) serves three "best of the year" movie catalogs, for
2025, 2024 and 2023, to media-center clients. Its catalog handler routes
a catalog id to its year and answers with `getBestOfYear` of scraper.js:
the movie metadata service's (TMDB) top-rated films of that year, the
first twenty looked up concurrently (`Promise.all`) with the results
kept in discover order, and converted into catalog entries keyed by the
IMDb id, or by `tt` followed by the metadata service's numeric id when a
film has none. Its meta handler answers only for ids starting with `tt`.

The repository also holds scraper-safe.js, an alternative scraper module
that the model covers as well. It reads the "best of the year" list pages
of the Italian review site FilmTV.it and keeps each film's title, rating
and original title. It searches the metadata service for every title,
picks one search result per title, and turns the result's details into an
entry keyed by its IMDb id. It keeps whole catalogs in an in-memory cache
for an hour. At most one resolution per list runs at a time, at most three
lists resolve at once, and at most six HTTP calls are in flight.

This project models both as pure Dafny functions over immutable
data. The HTTP calls, the page parser and the clock are parameters. The
modules follow the program:

- `Base` — `Option`/`Result` and the "drop the nulls, keep the order" fold.
- `Text` — lowercasing, substring search, trimming, and decimal rendering and parsing.
- `Cache` — the raw-response cache and the catalog cache, with lazy expiry.
- `RateLimit` — the two concurrency limiters as a submit/complete state machine.
- `Tmdb` — metadata records and both entry converters (strict and lenient).
- `Matcher` — `findBestMatch`.
- `Search` — `searchMovieOnTMDB` and its three-step search escalation.
- `Scrape` — heading cleanup, the title filter with its `seen` set, pages, and the year of a filter.
- `Catalog` — `getBestOfYear` / `getFilteredList` of scraper-safe.js, modelled once over a list source:
  - the resolution itself;
  - cache lookup, in-flight joining and limiter bookkeeping as request/finish events.
- `Discover` — `getBestOfYear` of scraper.js: the top-20 list that the entry point actually imports.
- `Addon` — the catalog and meta handlers of index.js.
- `Scenarios` — a worked example: one list resolved end to end.

Behaviour of the code worth stating plainly:

- The matcher is a single pass over the results. When no result is eligible, it falls back to the first result. No minimum score applies.
- Popularity adds at most 10 to a score.
- The three searches run one after the other.
- An empty scrape is answered with `[]` and is not cached. A resolved but empty list is cached, yet never served from the cache.

## Model

| member | source | states |
|---|---|---|
| Matcher.FindBestMatch | scraper-safe.js:322-380 | No match exactly when there are no results. Otherwise the match is one of the results: the first of the highest-scoring results that are not marker titles, or the first result when every result is a marker title. No minimum score is required. |
| Matcher.Scan | scraper-safe.js:331-375 | The scoring loop ends with the first strictly-best non-marker index, or with nothing when no result is eligible. |
| Matcher.TitlePart | scraper-safe.js:346-358 | The title component is 200 exactly for a case-insensitive match with a truthy original title. Otherwise it is 100 exactly when the result title equals the searched title ignoring case. Otherwise it is 50 exactly when either lowercased title contains the other, and 0 when neither does. |
| Matcher.YearPart | scraper-safe.js:360-366 | The year component is 30 exactly when a year was searched and the result has that year. It is 10 exactly when a year was searched and the result has a non-zero year one off. Otherwise it is 0. |
| Matcher.PopularityPart | scraper-safe.js:369 | The popularity bonus is the popularity capped at 10. |
| Matcher.HighScoreNeedsOriginal | scraper-safe.js:346-369 | A score above 100+30+10 is only reachable through an original-title match. |
| Matcher.OriginalTitleWins | scraper-safe.js:346-374 | If a non-marker result matches the original title, so does the picked result. |
| Matcher.ExactMatchWins | scraper-safe.js:346-374 | When no result matches the original title, a non-marker result with the searched title (ignoring case), the searched year and a non-negative popularity means the pick has that title and that year too. A result that only contains the title, or is a year off, never beats it. |
| Matcher.EarliestOfTies | scraper-safe.js:371-374 | A later result that ties an earlier eligible one is never the pick. |
| Matcher.ChosenIsFindBestMatch | scraper-safe.js:322-380 | The loop-free description of the pick (nothing for no results, otherwise the first best-scoring non-marker result, or the first result when none is eligible) admits exactly one answer, the one the matcher returns. |
| Matcher.PickedIsNotMarker | scraper-safe.js:337-344 | When any result is eligible, the pick is not a marker title. |
| Matcher.SingleResult | scraper-safe.js:379 | A single result is always returned, even a marker title. |
| Search.Escalate | scraper-safe.js:384-407 | The searches run in order: (1) the local title with the year; (2) only if (1) found nothing and a different original title is known, the original title with the year; (3) only if (2) also found nothing, the original title without a year. An error stops the escalation. |
| Search.SearchMovie | scraper-safe.js:382-442 | An entry results exactly when the final search has results and the details lookup of the picked result succeeds with an id starting with `tt`. The entry is the strict converter's entry for the picked result's fetched details, with the IMDb id and the site rating attached: its id is the IMDb id that lookup returned, its name is the title in the fetched details, and its poster, background, logo, description, release info, genres and country are those the strict converter gives. The site rating is attached exactly when it is truthy. |
| Search.SearchPrefersOriginal | scraper-safe.js:408-415 | If a non-marker result carries the original title, the resolved pick carries it too. |
| Search.FoundOnFirstSearch | scraper-safe.js:384-437 | A first search that answers a single result stops the escalation and converts that result's details. |
| Tmdb.ImageUrl | scraper-safe.js:284-286 | An image URL is null exactly for a falsy path. Otherwise it is the image base followed by the path. |
| Tmdb.LogoRoundTrip | scraper-safe.js:287 | The logo URL embeds the IMDb id, and the id can be read back from it. |
| Tmdb.ReleaseInfo | scraper-safe.js:289 | The release info is the part of the date before the first `-`, or null for a falsy date. |
| Tmdb.GenreNames | scraper-safe.js:291 | The genre names in order, or `[]` when genres are absent. |
| Tmdb.ConvertSafe | scraper-safe.js:248-303 | The strict converter returns an entry exactly when `imdb_id` starts with `tt`. The entry's id is that IMDb id. The logo is recoverable to the id. The poster and background follow their paths. The site rating appears in the description and in its own field exactly when it is truthy. |
| Tmdb.ConvertSimple | scraper.js:41-65 | The id is the truthy IMDb id, or else `tt` followed by digits that parse back to the numeric id. The poster and background are the image base plus their paths, or null for a falsy path. The logo equals the poster. The description is the bare overview. The release info, genres and country follow the same rules as the strict converter. |
| Tmdb.SyntheticIdRoundTrip | scraper.js:46 | The fallback id starts with `tt`, and the numeric id can be parsed back from it. |
| Tmdb.VariantsAgree | scraper.js:48-63 | For a movie with a proper IMDb id, the two converters agree on every field except the logo, the description and the site rating. |
| Cache.Store | scraper-safe.js:195 | Storing overwrites one key, stamps it with the given time and keeps every other key. |
| Cache.StoreThenLookup | scraper-safe.js:171-195 | A stored response is read back for exactly one cache duration. |
| Cache.StoreOtherKey | scraper-safe.js:235 | Storing one key leaves every other key's lookup unchanged. |
| Cache.StaleStaysStale | scraper-safe.js:175 | An expired entry stays expired at every later time. |
| Cache.FetchCached | scraper-safe.js:205-246 | On a hit, the cached data is returned with no upstream call. On a miss, upstream is called. A success is stored stamped with the request time. A failure is passed on and leaves the cache unchanged. |
| Cache.SecondFetchIsCached | scraper.js:12-39 | A fetch of a key started after an earlier fetch of it has stored its answer, within the cache duration, does not call upstream and returns the stored data. |
| RateLimit.Idle | scraper-safe.js:37-40 | The limiters start with nothing running and nothing queued. |
| RateLimit.Submit | scraper-safe.js:112-120 | A submitted task starts exactly when a slot is free, and is queued otherwise. The cap and the rule "nobody waits while a slot is free" are preserved. |
| RateLimit.Complete | scraper-safe.js:130-134 | Completing a task releases its slot and starts the oldest waiting task in it. |
| RateLimit.Run | scraper-safe.js:112-168 | Any sequence of submissions and completions keeps both limiter invariants. |
| RateLimit.ApplyIsFifo | scraper-safe.js:112-134 | One submission or completion neither loses nor reorders a task. |
| RateLimit.RunIsFifo | scraper-safe.js:130-134 | The started tasks, followed by the tasks still waiting, equal the initial queue followed by the submissions in order. |
| RateLimit.RunConserves | scraper-safe.js:112-141 | No task is lost or duplicated. |
| RateLimit.RequestsStayBounded | scraper-safe.js:35-134 | Whatever calls are submitted and settle, the HTTP limiter never runs more than six at once, and a call waits only while six are running. |
| Scrape.CleanTitleSegment | scraper-safe.js:472-476 | The cleaned title is the first segment of the heading: it starts at the first non-space character, holds no line break or tab, and is followed only by white space up to the next line break, tab or the end. It is empty only for a blank heading. |
| Scrape.Accept | scraper-safe.js:470-519 | Every kept title is acceptable, is new to the initial `seen` set and carries the list's year. |
| Scrape.AcceptDistinct | scraper-safe.js:484-511 | The kept titles are pairwise distinct. |
| Scrape.AcceptInOrder | scraper-safe.js:511-517 | The kept titles are a subsequence of the page's titles, in the same order. |
| Scrape.AcceptComplete | scraper-safe.js:478-517 | Every acceptable title that was not seen before is kept. |
| Scrape.AcceptAppend | scraper-safe.js:522-590 | Filtering two pages with one shared `seen` set is the same as filtering the first page and then the second with the first page's titles added to `seen`. |
| Scrape.OriginalTitleOf | scraper-safe.js:501-509 | The original title is null exactly when there is no label text or that text is blank. Otherwise it is the label text trimmed. |
| Scrape.ReadAllAppend | scraper-safe.js:470-590 | Reading two pages is reading one after the other. |
| Scrape.ScrapeList | scraper-safe.js:445-604 | A first page that fails to load is an error. Otherwise the entries are distinct, acceptable and carry the year. They are the first page's accepted entries, followed by the accepted entries of the further pages read up to the first one that fails to load, filtered against every title the first page kept. |
| Scrape.PageHeadings | scraper-safe.js:523-589 | The headings read are the first page's, then those of each further page in order, stopping at the first page that fails to load (`break`). |
| Scrape.YearOfFilter | scraper-safe.js:701-702 | The year is the number written by the four digits after the leftmost `anno-` that is followed by four digits. Without such a match the year is the current year. |
| Scrape.YearOfYearFilter | scraper-safe.js:701-702 | The filter `anno-<year>` yields that year back. |
| Catalog.YearKeysDistinct | scraper-safe.js:870 | Different years never share a catalog cache key. |
| Catalog.YearAndFilterShareKey | scraper-safe.js:608 | A year list and a filter consisting of that year's digits share one cache entry. |
| Catalog.Resolve | scraper-safe.js:786-821 | A failed or empty scrape gives an uncached `[]`. Otherwise the list holds exactly the records that resolved, and its length is the scraped count minus the entries that did not resolve. Every id starts with `tt`. The order is fixed by ResolveAppend. |
| Catalog.ResolveSingle | scraper-safe.js:798-821 | A one-entry list gives that entry's record when it resolves, and a computed empty list when it does not. |
| Catalog.ResolveAppend | scraper-safe.js:798-821 | Resolving a list gives the answers for its first part followed by those for its second part. With ResolveSingle this fixes the result: the entries that resolved, in scrape order, each as often as it resolved. |
| Catalog.ScrapeFor | scraper-safe.js:898-902 | The scrape of either list kind has distinct titles stamped with the list's year. When the first page loads it is the list scrape for the list's year (the year itself, or the one in the filter). A failed first page ends in an empty list for a year list and in an error for a filter page. |
| Catalog.Init | scraper-safe.js:52-55 | Nothing is cached and nothing is in flight, which satisfies the bookkeeping invariant. |
| Catalog.Request | scraper-safe.js:607-629 | The lookup order is: a fresh non-empty cached list; else joining the resolution in flight; else a new resolution registered in flight with its request time and submitted to the catalog limiter, whose state afterwards is exactly the limiter's submit step (started below the cap, otherwise appended to the back of the queue). The invariant is kept. |
| Catalog.Finish | scraper-safe.js:836-866 | When a resolution settles, its key always leaves the in-flight set. A computed list is cached stamped with its request time; an uncached result leaves the cache unchanged. The limiter takes exactly its complete step: the slot passes to the oldest waiting list and the rest keep their order. |
| Catalog.NoSecondResolution | scraper-safe.js:626-629 | After a resolution has started, further requests for the same list hit the cache or join; none starts a second resolution. |
| Catalog.CachedAfterFinish | scraper-safe.js:617-623 | A computed non-empty list is served from the cache until one cache duration after its request. |
| Catalog.EmptyListIsResolvedAgain | scraper-safe.js:619 | A computed empty list is never served from the cache. |
| Catalog.UncachedIsResolvedAgain | scraper-safe.js:786-789 | After an empty scrape, the next request resolves the list again. |
| Catalog.FreshRequestServesResolution | scraper-safe.js:852-862 | A resolution whose first page failed serves `[]` and caches nothing. The key is released. Every served id starts with `tt`. |
| Discover.Lookup | scraper.js:101-102 | A movie converts exactly when its details lookup succeeds. |
| Discover.Considered | scraper.js:100 | Only the first twenty results are considered. |
| Discover.BestOfYear | scraper.js:84-111 | An error gives `[]`. At most 20 entries are returned. They are exactly the converted successful lookups among the first twenty results, and their count is twenty (or fewer results) minus the failed lookups. |
| Discover.BestOfYearAppend | scraper.js:99-108 | Within the first twenty results, the answer for a list of ids is the answer for its first part followed by that for its second part. |
| Discover.LookupOne | scraper.js:101-104 | A single id gives its converted lookup, or nothing when the lookup fails. With BestOfYearAppend and OnlyFirstTwenty this fixes the answer: the successful lookups among the first twenty, in the service's order. |
| Discover.SuccessfulLookupIsServed | scraper.js:99-106 | Every successful lookup among the first twenty results is served. |
| Discover.OnlyFirstTwenty | scraper.js:100 | Results past the twentieth never change the answer. |
| Discover.AllFoundKeepsOrder | scraper.js:99-106 | When every lookup succeeds, the entries follow the order of the service's results. |
| Addon.RoutesDeclaredCatalogs | index.js:45-58 | Exactly the three declared catalog ids are routed, each to its declared year. |
| Addon.CatalogYearInjective | index.js:46-58 | Different catalog ids route to different years. |
| Addon.CatalogHandler | index.js:38-70 | Another type or an unknown id gets `[]`. A declared id gets that year's list from scraper.js, which has at most 20 entries. |
| Addon.MetaHandler | index.js:73-90 | A meta answer is given exactly for type `movie` and an id starting with `tt`, and it carries the requested id. |
| Addon.StrictEntriesHaveMeta | index.js:76 | Every entry of the strict converter passes the meta handler's guard. |
| Addon.LenientEntriesHaveMeta | index.js:76 | A lenient entry passes the guard exactly when the movie had no IMDb id or one starting with `tt`. |
| Base.CollectLength | scraper-safe.js:821 | Dropping the nulls keeps exactly the non-null entries. |
| Base.CollectAppend | scraper-safe.js:821 | Dropping the nulls keeps the relative order. |
| Base.CollectMembers | scraper-safe.js:821 | A value is kept exactly when it is present in the input. |
| Scenarios.OneTitleEndToEnd | scraper-safe.js:786-821 | A one-title list whose first search finds a movie with IMDb id `tt1234567` resolves to exactly one entry with that id. |

## Left out

- HTTP and DOM: the axios calls, headers, timeouts and the cheerio traversal are left out. A page arrives as its headings. A heading arrives as the text the numbering pattern captured, its rating and its original-title text.
- Regular expressions: the loader-URL extraction, the heading numbering pattern and the `Titolo originale` pattern are given as their results. `/anno-(\d{4})/` is written out as a scan.
- Pages past the first: whether a loader URL exists and whether a page carried `html` are given by the caller, as the list of further page results.
- Timers and scheduling: the 150 ms delay, promise scheduling and the microtask order between the in-flight delete and the limiter release are left out. Concurrency is a sequence of request and finish events.
- Cache.FetchCached: a cache miss is one atomic step. In the code the check, the upstream call and the store are separated by an `await`, so two overlapping misses of one key each call upstream; the response caches do not merge fetches already running (only the catalog's in-flight map does).
- Dates and clocks: `Date.now()` and `new Date().getFullYear()` are parameters.
- Floating point: `parseFloat`, `parseInt` of a release date, `toFixed(1)` and the star strings are left out. Ratings and popularity are reals. A release year is given already parsed. The description keeps its rating and overview as structured fields.
- Runtime text: the `" min"` suffix is left out; the runtime is kept as a number.
- Lowercasing: `toLowerCase` is modelled on ASCII letters only.
- Text.IsSpace: white space is the ASCII set. JavaScript's `trim()` also removes U+00A0 (what `&nbsp;` becomes in the page text), U+FEFF and the other Unicode spaces. A heading or original title ending in such a character keeps it in the model, so its title, its `seen` entry and its search text differ from the program's.
- Scrape.Acceptable: a title's length is counted in characters, whereas JavaScript's `.length` counts UTF-16 code units. A title with characters outside the Basic Multilingual Plane can be judged differently at the 3-character minimum.
- Monitoring: logging, request statistics, usage warnings and the debug telemetry calls are left out. So is the `noImdbIdCount` diagnostic, which has no effect on results.
- Credentials and configuration: `setTMDBApiKey`, environment variables, `getAllLists`, the server start-up and test-manifest.js are left out.
- The HTTP limiter: `RateLimit.RequestLimiter` is the same machine with cap 6. Its coupling to each individual fetch is not traced through `Search`, where calls are plain parameters.
- Addon.CatalogHandler: the handler's own `catch` is not modelled, because the scraper.js list it calls turns every error into `[]` itself. The error path is therefore `Discover.BestOfYear` on a failed discover call.
- Search.SearchMovie: the `!bestMatch` check is not modelled, because the matcher never returns null for a non-empty list.

=== FILE: addon.dfy ===
/** The addon entry point (index.js): the manifest's three catalogs, the
    catalog handler that routes a catalog id to a year and serves
    scraper.js's list of that year, and the meta handler that answers
    only for IMDb ids. */
module Addon {
  import opened Base
  import opened Text
  import opened Tmdb
  import opened Discover

  /** One catalog the manifest declares: its id and the year it lists. */
  datatype CatalogDecl = CatalogDecl(id: string, year: int)

  /** The manifest's `catalogs`, in declaration order. */
  const Catalogs: seq<CatalogDecl> := [
    CatalogDecl("filmtv-best-2025", 2025),
    CatalogDecl("filmtv-best-2024", 2024),
    CatalogDecl("filmtv-best-2023", 2023)
  ]

  /** The `switch (id)` of the catalog handler. */
  function CatalogYear(id: string): (y: Option<int>)
  {
    if id == "filmtv-best-2025" then Some(2025)
    else if id == "filmtv-best-2024" then Some(2024)
    else if id == "filmtv-best-2023" then Some(2023)
    else None
  }

  /** The switch routes exactly the declared catalogs, each to its own
      year: a declared id gets its year, any other id none. */
  lemma RoutesDeclaredCatalogs(id: string)
    ensures CatalogYear(id).Some? <==> exists i :: 0 <= i < |Catalogs| && Catalogs[i].id == id
    ensures forall i :: 0 <= i < |Catalogs| && Catalogs[i].id == id ==> CatalogYear(id) == Some(Catalogs[i].year)
  {
    if id == Catalogs[0].id {
      assert Catalogs[0].id == id;
    } else if id == Catalogs[1].id {
      assert Catalogs[1].id == id;
    } else if id == Catalogs[2].id {
      assert Catalogs[2].id == id;
    }
  }

  /** Different catalogs are served different years. */
  lemma CatalogYearInjective(a: string, b: string)
    requires CatalogYear(a).Some? && CatalogYear(a) == CatalogYear(b)
    ensures a == b
  {
  }

  /** The catalog handler: `{ metas: [] }` for another type or an unknown
      id; otherwise the year's list, with `[]` should it throw. The list
      of a year is given by what the discover call answers for it. */
  function CatalogHandler(kind: string, id: string, discoverFor: int -> Result<seq<nat>>,
                          details: nat -> Result<Details>): (metas: seq<Meta>)
    ensures kind != "movie" || CatalogYear(id).None? ==> metas == []
    ensures |metas| <= DiscoverLimit
    ensures kind == "movie" && CatalogYear(id).Some? ==>
              metas == BestOfYear(discoverFor(CatalogYear(id).value), details)
  {
    if kind != "movie" then []
    else
      match CatalogYear(id)
      case None => []
      case Some(year) => BestOfYear(discoverFor(year), details)
  }

  /** The placeholder the meta handler answers with. */
  datatype MetaStub = MetaStub(id: string, kind: string, name: string, description: string)

  /** The meta handler: `{ meta: null }` unless the type is `movie` and the
      id starts with `tt`; then a placeholder carrying the id. */
  function MetaHandler(kind: string, id: string): (r: Option<MetaStub>)
    ensures r.Some? <==> kind == "movie" && StartsWith(id, "tt")
    ensures r.Some? ==> r.value.id == id && r.value.kind == "movie"
  {
    if kind != "movie" || !StartsWith(id, "tt") then None
    else Some(MetaStub(id, "movie", "Movie", "See catalog for details"))
  }

  /** Every entry the strict converter produces is one the meta handler
      answers for. */
  lemma StrictEntriesHaveMeta(m: Movie)
    requires ConvertSafe(m).Some?
    ensures MetaHandler(ConvertSafe(m).value.kind, ConvertSafe(m).value.id).Some?
  {
  }

  /** An entry of the lenient converter is answered for when the movie
      had no IMDb id (the synthetic id starts with `tt`) or one starting
      with `tt`; an IMDb id in any other form is passed through as is and
      gets no meta. */
  lemma LenientEntriesHaveMeta(m: Movie)
    ensures MetaHandler(ConvertSimple(m).kind, ConvertSimple(m).id).Some?
            <==> !TruthyText(m.imdbId) || StartsWith(m.imdbId.value, "tt")
  {
  }
}

=== FILE: base.dfy ===
/** Failure-carrying wrappers shared by every component, and the
    "drop the nulls, keep the order" fold the addon applies to its
    per-entry results (`filter(m => m !== null)`). */
module Base {

  /** A value that may be absent: JavaScript's `null` / `undefined`. */
  datatype Option<+T> = None | Some(value: T)

  /** The outcome of a call that can throw: a value, or the thrown error. */
  datatype Result<+T> = Ok(value: T) | Fail(message: string)

  /** JavaScript truthiness of an optional string: present and non-empty. */
  predicate TruthyText(s: Option<string>)
  {
    s.Some? && s.value != ""
  }

  /** JavaScript truthiness of an optional number: present and non-zero. */
  predicate TruthyReal(x: Option<real>)
  {
    x.Some? && x.value != 0.0
  }

  /** The present values of `xs`, in their original order. */
  function Collect<T>(xs: seq<Option<T>>): (r: seq<T>)
    ensures |r| <= |xs|
    ensures forall i :: 0 <= i < |r| ==> Some(r[i]) in xs
  {
    if |xs| == 0 then []
    else if xs[0].Some? then [xs[0].value] + Collect(xs[1..])
    else Collect(xs[1..])
  }

  /** Number of absent entries. */
  function NoneCount<T>(xs: seq<Option<T>>): nat
  {
    if |xs| == 0 then 0
    else (if xs[0].None? then 1 else 0) + NoneCount(xs[1..])
  }

  /** Every present entry survives and every absent one is dropped:
      the collected list is exactly `|xs| - NoneCount(xs)` long. */
  lemma {:induction false} CollectLength<T>(xs: seq<Option<T>>)
    ensures |Collect(xs)| + NoneCount(xs) == |xs|
  {
    if |xs| > 0 {
      CollectLength(xs[1..]);
    }
  }

  /** Collecting distributes over concatenation, so the relative order
      of the surviving entries is the order of the input. */
  lemma {:induction false} CollectAppend<T>(a: seq<Option<T>>, b: seq<Option<T>>)
    ensures Collect(a + b) == Collect(a) + Collect(b)
  {
    if |a| == 0 {
      assert a + b == b;
    } else {
      assert (a + b)[1..] == a[1..] + b;
      CollectAppend(a[1..], b);
    }
  }

  /** Conversely, every present value of the input is in the output. */
  lemma {:induction false} CollectComplete<T>(xs: seq<Option<T>>, i: nat)
    requires i < |xs| && xs[i].Some?
    ensures xs[i].value in Collect(xs)
  {
    if i > 0 {
      CollectComplete(xs[1..], i - 1);
    }
  }

  /** Membership in the collected list is exactly presence in the input. */
  lemma CollectMembers<T>(xs: seq<Option<T>>)
    ensures forall m :: m in Collect(xs) <==> Some(m) in xs
  {
    forall m | Some(m) in xs
      ensures m in Collect(xs)
    {
      var i :| 0 <= i < |xs| && xs[i] == Some(m);
      CollectComplete(xs, i);
    }
  }

  /** Collecting a list without absent entries unwraps it in place. */
  lemma {:induction false} AllPresent<T>(xs: seq<Option<T>>)
    requires forall i :: 0 <= i < |xs| ==> xs[i].Some?
    ensures |Collect(xs)| == |xs| && forall i :: 0 <= i < |xs| ==> Collect(xs)[i] == xs[i].value
  {
    if |xs| > 0 {
      AllPresent(xs[1..]);
      assert Collect(xs) == [xs[0].value] + Collect(xs[1..]);
    }
  }
}

=== FILE: cache.dfy ===
/** The two in-memory caches: raw responses keyed by URL (or URL plus
    query parameters), and resolved catalog lists keyed by
    `catalog_<filter>`. Entries expire lazily: nothing is ever evicted,
    a stale entry is simply not used. The clock is a parameter. */
module Cache {
  import opened Base

  /** One hour, in milliseconds. */
  const CacheDuration: int := 1000 * 60 * 60

  datatype CacheEntry<V> = CacheEntry(data: V, timestamp: int)

  /** `now - timestamp < CACHE_DURATION`. */
  predicate Fresh<V>(e: CacheEntry<V>, now: int)
  {
    now - e.timestamp < CacheDuration
  }

  /** The raw-response lookup: the stored data while it is fresh. */
  function Lookup<K, V>(c: map<K, CacheEntry<V>>, key: K, now: int): (r: Option<V>)
    ensures r.Some? <==> key in c && now - c[key].timestamp < CacheDuration
    ensures r.Some? ==> r.value == c[key].data
  {
    if key in c && Fresh(c[key], now) then Some(c[key].data) else None
  }

  /** The catalog lookup: additionally a list must be non-empty to count
      as a hit, so a cached empty list always leads to a new resolution. */
  function CatalogLookup<K, T>(c: map<K, CacheEntry<seq<T>>>, key: K, now: int): (r: Option<seq<T>>)
    ensures r.Some? <==> key in c && |c[key].data| > 0 && now - c[key].timestamp < CacheDuration
    ensures r.Some? ==> r.value == c[key].data && |r.value| > 0
  {
    if key in c && |c[key].data| > 0 && Fresh(c[key], now) then Some(c[key].data) else None
  }

  /** `cache.set(key, {data, timestamp})`: unconditional overwrite. */
  function Store<K, V>(c: map<K, CacheEntry<V>>, key: K, v: V, now: int): (r: map<K, CacheEntry<V>>)
    ensures r.Keys == c.Keys + {key}
    ensures key in r && r[key].data == v && r[key].timestamp == now
    ensures forall k :: k in c && k != key ==> k in r && r[k] == c[k]
  {
    c[key := CacheEntry(v, now)]
  }

  /** A stored value is read back for exactly one cache duration. */
  lemma StoreThenLookup<K, V>(c: map<K, CacheEntry<V>>, key: K, v: V, stored: int, now: int)
    ensures Lookup(Store(c, key, v, stored), key, now) ==
            (if now < stored + CacheDuration then Some(v) else None)
  {
  }

  /** Storing under one key leaves every other key's lookup as it was. */
  lemma StoreOtherKey<K, V>(c: map<K, CacheEntry<V>>, key: K, other: K, v: V, stored: int, now: int)
    requires other != key
    ensures Lookup(Store(c, key, v, stored), other, now) == Lookup(c, other, now)
  {
  }

  /** An entry that is stale at some time stays stale later on. */
  lemma StaleStaysStale<K, V>(c: map<K, CacheEntry<V>>, key: K, now: int, later: int)
    requires now <= later
    requires Lookup(c, key, now).None?
    ensures Lookup(c, key, later).None?
  {
  }

  /** What one cached fetch did: the cache afterwards, what it returned,
      and whether the upstream service was called at all. */
  datatype FetchStep<K, V> = FetchStep(cache: map<K, CacheEntry<V>>, result: Result<V>, calledUpstream: bool)

  /** `fetchWithCache` / `fetchFromTMDB`: answer from a fresh entry, or
      call upstream (`fetch` is what that call would yield) and store a
      successful answer stamped with the time of the request. A failure
      is passed on to the caller and leaves the cache alone. */
  function FetchCached<K, V>(c: map<K, CacheEntry<V>>, key: K, now: int, fetch: Result<V>): (r: FetchStep<K, V>)
    ensures Lookup(c, key, now).Some? ==>
              r.result == Ok(c[key].data) && r.cache == c && !r.calledUpstream
    ensures Lookup(c, key, now).None? ==> r.calledUpstream && r.result == fetch
    ensures Lookup(c, key, now).None? && fetch.Ok? ==>
              key in r.cache && r.cache[key] == CacheEntry(fetch.value, now)
    ensures fetch.Fail? ==> r.cache == c
    ensures forall k :: k in c && k != key ==> k in r.cache && r.cache[k] == c[k]
  {
    match Lookup(c, key, now)
    case Some(data) => FetchStep(c, Ok(data), false)
    case None =>
      match fetch
      case Ok(v) => FetchStep(Store(c, key, v, now), Ok(v), true)
      case Fail(e) => FetchStep(c, Fail(e), true)
  }

  /** A fetch of a key started after an earlier fetch of it has stored
      its answer, within the cache duration, does not call upstream and
      returns what the first stored. */
  lemma SecondFetchIsCached<K, V>(c: map<K, CacheEntry<V>>, key: K, now: int, later: int, v: V, fetch2: Result<V>)
    requires now <= later < now + CacheDuration
    requires Lookup(c, key, now).None?
    ensures var first := FetchCached(c, key, now, Ok(v));
            var second := FetchCached(first.cache, key, later, fetch2);
            second.result == Ok(v) && !second.calledUpstream
  {
  }
}

=== FILE: catalog.dfy ===
/** `getBestOfYear` and `getFilteredList` of scraper-safe.js: a catalog
    request is answered from the catalog cache, or joins the resolution
    of the same list already in flight, or starts a new resolution under
    the catalog limiter. A resolution scrapes the list, resolves every
    entry against the metadata service, drops the failures and caches the
    rest, stamped with the time of the request that started it. Requests
    and completions are separate events, so interleavings of concurrent
    requests are sequences of calls. */
module Catalog {
  import opened Base
  import opened Text
  import opened Cache
  import opened RateLimit
  import opened Tmdb
  import opened Matcher
  import opened Search
  import opened Scrape

  /** The two kinds of list: the site's best of a year, and a list
      described by a filter path such as `anno-2024`. */
  datatype ListSource = BestOfYear(year: int) | Filtered(filters: string)

  /** A JavaScript integer as a template literal renders it. */
  function IntToString(n: int): (s: string)
    ensures |s| > 0
  {
    if n < 0 then "-" + NatToString(-n) else NatToString(n)
  }

  /** `catalog_${year}` / `catalog_${filters}`. */
  function CacheKey(src: ListSource): string
  {
    "catalog_" + (match src
                  case BestOfYear(y) => IntToString(y)
                  case Filtered(f) => f)
  }

  /** Different years never share a cache entry. */
  lemma YearKeysDistinct(a: nat, b: nat)
    requires a != b
    ensures CacheKey(BestOfYear(a)) != CacheKey(BestOfYear(b))
  {
    var ka := CacheKey(BestOfYear(a));
    var kb := CacheKey(BestOfYear(b));
    if ka == kb {
      assert ka[8..] == NatToString(a) && kb[8..] == NatToString(b);
      RenderInjective(a, b);
    }
  }

  /** A year list and a filter list whose filter is that year's digits
      share one cache entry and one in-flight slot. */
  lemma YearAndFilterShareKey(y: nat)
    ensures CacheKey(BestOfYear(y)) == CacheKey(Filtered(NatToString(y)))
  {
  }

  /** The year stamped on every entry of the list: the year itself, or
      the one a filter names (the current year when it names none). */
  function ListYear(src: ListSource, currentYear: int): (y: int)
    ensures src.BestOfYear? ==> y == src.year
  {
    match src
    case BestOfYear(y) => y
    case Filtered(f) => YearOfFilter(f, currentYear)
  }

  /** `searchMovieOnTMDB(movie.title, movie.year, movie.filmtvRating,
      movie.originalTitle || null)` for one scraped entry. */
  function ResolveEntry(e: ScrapedEntry, search: SearchQuery -> Result<seq<Candidate>>,
                        fetch: nat -> Result<Details>): Option<Meta>
  {
    SearchMovie(e.title, e.year, e.rating, if TruthyText(e.originalTitle) then e.originalTitle else None,
                search, fetch)
  }

  /** All entries resolved, in list order (`Promise.all` keeps order). */
  function ResolveAll(entries: seq<ScrapedEntry>, search: SearchQuery -> Result<seq<Candidate>>,
                      fetch: nat -> Result<Details>): (r: seq<Option<Meta>>)
    ensures |r| == |entries|
    ensures forall m :: Some(m) in r ==> StartsWith(m.id, "tt")
  {
    if |entries| == 0 then []
    else [ResolveEntry(entries[0], search, fetch)] + ResolveAll(entries[1..], search, fetch)
  }

  lemma {:induction false} ResolveAllAppend(a: seq<ScrapedEntry>, b: seq<ScrapedEntry>,
                                            search: SearchQuery -> Result<seq<Candidate>>,
                                            fetch: nat -> Result<Details>)
    ensures ResolveAll(a + b, search, fetch) == ResolveAll(a, search, fetch) + ResolveAll(b, search, fetch)
  {
    if |a| == 0 {
      assert a + b == b;
    } else {
      assert (a + b)[0] == a[0];
      assert (a + b)[1..] == a[1..] + b;
      ResolveAllAppend(a[1..], b, search, fetch);
    }
  }

  /** What a resolution produced: a list that is cached, or a list that
      is handed to the waiting callers without being cached. */
  datatype Outcome = Computed(data: seq<Meta>) | Uncached(data: seq<Meta>)

  /** The body run under the catalog limiter: a scrape that failed or
      found nothing answers `[]` and caches nothing; otherwise every entry
      is resolved and the ones that resolved are kept, in order. */
  function Resolve(scrape: Result<seq<ScrapedEntry>>, search: SearchQuery -> Result<seq<Candidate>>,
                   fetch: nat -> Result<Details>): (r: Outcome)
    ensures r.Uncached? <==> scrape.Fail? || |scrape.value| == 0
    ensures r.Uncached? ==> r.data == []
    ensures r.Computed? ==>
              |r.data| + NoneCount(ResolveAll(scrape.value, search, fetch)) == |scrape.value|
    ensures r.Computed? ==>
              forall m :: m in r.data <==> Some(m) in ResolveAll(scrape.value, search, fetch)
    ensures forall i :: 0 <= i < |r.data| ==> StartsWith(r.data[i].id, "tt")
  {
    if scrape.Fail? || |scrape.value| == 0 then Uncached([])
    else
      var all := ResolveAll(scrape.value, search, fetch);
      CollectLength(all);
      CollectMembers(all);
      Computed(Collect(all))
  }

  /** The scrape behind a list: `scrapeFilmTVList(year)` for a year (which
      turns its own errors into `[]`), or the inline scrape of the filter
      page, whose first-page error reaches the resolution's `catch`. Either
      way a failed first page ends in an uncached `[]`. */
  function ScrapeFor(src: ListSource, first: Result<seq<Heading>>, more: seq<Result<seq<Heading>>>,
                     currentYear: int): (r: Result<seq<ScrapedEntry>>)
    requires |more| <= PagesToScrape - 1
    ensures r.Ok? ==> forall i :: 0 <= i < |r.value| ==> r.value[i].year == ListYear(src, currentYear)
    ensures r.Ok? ==> DistinctTitles(r.value)
    ensures first.Fail? ==> r.Fail? || r == Ok([])
    ensures first.Fail? ==> (r == Ok([]) <==> src.BestOfYear?)
    ensures first.Ok? ==> r == ScrapeList(first, more, ListYear(src, currentYear))
  {
    match src
    case BestOfYear(y) =>
      var s := ScrapeList(first, more, y);
      if s.Fail? then Ok([]) else s
    case Filtered(f) => ScrapeList(first, more, YearOfFilter(f, currentYear))
  }

  /** The shared state: the catalog cache, the lists being resolved (key
      to the time of the request that started it) and the catalog
      limiter, whose tasks are named by their keys. */
  datatype State = State(cache: map<string, CacheEntry<seq<Meta>>>, inFlight: map<string, int>,
                         limiter: Limiter<string>)

  /** Every list in flight is either running or waiting, each exactly
      once, and the limiter never runs more than three resolutions. */
  predicate Inv(s: State)
  {
    && Valid(s.limiter)
    && s.limiter.cap == MaxConcurrentCatalogs
    && (forall i :: 0 <= i < |s.limiter.queue| ==> s.limiter.queue[i] in s.inFlight)
    && (forall i, j :: 0 <= i < j < |s.limiter.queue| ==> s.limiter.queue[i] != s.limiter.queue[j])
    && |s.inFlight.Keys| == s.limiter.active + |s.limiter.queue|
  }

  /** Nothing cached, nothing in flight. */
  function Init(): (s: State)
    ensures Inv(s) && s.inFlight == map[] && s.cache == map[]
  {
    State(map[], map[], CatalogLimiter())
  }

  /** How a request was answered. */
  datatype Answer = Hit(data: seq<Meta>) | Joined | Started | Queued

  datatype Reply = Reply(state: State, answer: Answer)

  /** A request for the list under `key` at time `now`. */
  function Request(s: State, key: string, now: int): (r: Reply)
    requires Inv(s)
    ensures Inv(r.state)
    ensures r.answer.Hit? <==> CatalogLookup(s.cache, key, now).Some?
    ensures r.answer.Hit? ==> r.answer.data == s.cache[key].data && |r.answer.data| > 0
    ensures r.answer.Joined? <==> CatalogLookup(s.cache, key, now).None? && key in s.inFlight
    ensures r.answer.Started? || r.answer.Queued? ==>
              key !in s.inFlight && r.state.inFlight == s.inFlight[key := now]
    ensures r.answer.Started? <==> !r.answer.Hit? && !r.answer.Joined? && s.limiter.active < MaxConcurrentCatalogs
    ensures r.answer.Hit? || r.answer.Joined? ==> r.state == s
    ensures r.state.cache == s.cache
    ensures key in r.state.inFlight || r.answer.Hit?
    ensures r.answer.Started? || r.answer.Queued? ==>
              r.state.limiter == Submit(s.limiter, key).limiter
              && (r.answer.Started? <==> Submit(s.limiter, key).started == Some(key))
  {
    match CatalogLookup(s.cache, key, now)
    case Some(data) => Reply(s, Hit(data))
    case None =>
      if key in s.inFlight then Reply(s, Joined)
      else
        var step := Submit(s.limiter, key);
        StartKeepsInv(s, key, now);
        Reply(State(s.cache, s.inFlight[key := now], step.limiter), if step.started.Some? then Started else Queued)
  }

  /** Registering a new key and submitting it to the limiter keeps the
      bookkeeping invariant. */
  lemma StartKeepsInv(s: State, key: string, now: int)
    requires Inv(s) && key !in s.inFlight
    ensures Inv(State(s.cache, s.inFlight[key := now], Submit(s.limiter, key).limiter))
  {
    var step := Submit(s.limiter, key);
    var m := s.inFlight[key := now];
    assert m.Keys == s.inFlight.Keys + {key};
    assert |m.Keys| == |s.inFlight.Keys| + 1;
    var q := step.limiter.queue;
    forall i | 0 <= i < |q| ensures q[i] in m {
      if i < |s.limiter.queue| {
        assert q[i] == s.limiter.queue[i];
      }
    }
    forall i, j | 0 <= i < j < |q| ensures q[i] != q[j] {
      if j < |s.limiter.queue| {
        assert q[i] == s.limiter.queue[i] && q[j] == s.limiter.queue[j];
      } else {
        assert q[j] == key && q[i] == s.limiter.queue[i];
      }
    }
  }

  /** The limiter after a resolution settles, and the result. */
  datatype Finished = Finished(state: State, served: seq<Meta>, next: Option<string>)

  /** Whether `key` is resolving right now (in flight and not waiting). */
  predicate Running(s: State, key: string)
  {
    key in s.inFlight && key !in s.limiter.queue
  }

  /** The resolution for `key` settles with `outcome`: a computed list is
      cached stamped with its request time, the key leaves the in-flight
      set either way (`finally`), and the slot passes to the oldest
      waiting resolution. */
  function Finish(s: State, key: string, outcome: Outcome): (r: Finished)
    requires Inv(s) && Running(s, key)
    ensures Inv(r.state)
    ensures r.state.inFlight == s.inFlight - {key}
    ensures r.served == outcome.data
    ensures outcome.Computed? ==> r.state.cache == s.cache[key := CacheEntry(outcome.data, s.inFlight[key])]
    ensures outcome.Uncached? ==> r.state.cache == s.cache
    ensures |s.limiter.queue| > 0 ==> r.next == Some(s.limiter.queue[0]) && Running(r.state, s.limiter.queue[0])
    ensures |s.limiter.queue| == 0 ==> r.next.None?
    ensures r.state.limiter == Complete(s.limiter).limiter && r.next == Complete(s.limiter).started
    ensures r.state.limiter.queue == if |s.limiter.queue| > 0 then s.limiter.queue[1..] else []
  {
    var cache := if outcome.Computed? then Store(s.cache, key, outcome.data, s.inFlight[key]) else s.cache;
    assert |s.inFlight.Keys| >= 1 by {
      assert {key} <= s.inFlight.Keys;
    }
    var step := Complete(s.limiter);
    var s' := State(cache, s.inFlight - {key}, step.limiter);
    assert s'.inFlight.Keys == s.inFlight.Keys - {key};
    QueueTailDistinct(s.limiter.queue);
    Finished(s', outcome.data, step.started)
  }

  /** Dropping the head of a sequence without repetitions leaves one
      without repetitions that no longer holds the head. */
  lemma QueueTailDistinct(q: seq<string>)
    requires forall i, j :: 0 <= i < j < |q| ==> q[i] != q[j]
    ensures |q| > 0 ==> q[0] !in q[1..]
    ensures |q| > 0 ==> forall i, j :: 0 <= i < j < |q[1..]| ==> q[1..][i] != q[1..][j]
  {
    if |q| == 0 { return; }
    forall i | 0 <= i < |q[1..]| ensures q[1..][i] != q[0] {
      assert q[1..][i] == q[i + 1];
    }
    forall i, j | 0 <= i < j < |q[1..]| ensures q[1..][i] != q[1..][j] {
      assert q[1..][i] == q[i + 1] && q[1..][j] == q[j + 1];
    }
  }

  /** No stampede: once a request has started (or queued) the resolution
      of a list, any further request for it is served from the cache or
      joins; none starts a second resolution. */
  lemma NoSecondResolution(s: State, key: string, t0: int, t: int)
    requires Inv(s)
    requires Request(s, key, t0).answer.Started? || Request(s, key, t0).answer.Queued?
    ensures var again := Request(Request(s, key, t0).state, key, t).answer;
            again.Hit? || again.Joined?
  {
  }

  /** Answered from the cache: a computed non-empty list is served for
      one cache duration after the request that started its resolution,
      with no further resolution. */
  lemma CachedAfterFinish(s: State, key: string, data: seq<Meta>, now: int)
    requires Inv(s) && Running(s, key) && |data| > 0
    requires now < s.inFlight[key] + CacheDuration
    ensures var f := Finish(s, key, Computed(data));
            Request(f.state, key, now).answer == Hit(data)
  {
  }

  /** A computed empty list is stored but never served from the cache:
      the next request resolves the list again. */
  lemma EmptyListIsResolvedAgain(s: State, key: string, now: int)
    requires Inv(s) && Running(s, key)
    ensures var f := Finish(s, key, Computed([]));
            var r := Request(f.state, key, now);
            r.answer.Started? || r.answer.Queued?
  {
  }

  /** An uncached outcome leaves a key that was not served from the
      cache still not served from it. */
  lemma UncachedIsResolvedAgain(s: State, key: string, now: int)
    requires Inv(s) && Running(s, key) && CatalogLookup(s.cache, key, now).None?
    ensures var f := Finish(s, key, Uncached([]));
            var r := Request(f.state, key, now);
            r.answer.Started? || r.answer.Queued?
  {
  }

  /** The whole catalog answer for a request that starts a resolution at
      once: the list resolved from the scrape, or `[]`. */
  lemma FreshRequestServesResolution(s: State, src: ListSource, now: int, currentYear: int,
                                     first: Result<seq<Heading>>, more: seq<Result<seq<Heading>>>,
                                     search: SearchQuery -> Result<seq<Candidate>>, fetch: nat -> Result<Details>)
    requires Inv(s) && |more| <= PagesToScrape - 1
    requires Request(s, CacheKey(src), now).answer.Started?
    ensures var r := Request(s, CacheKey(src), now);
            var outcome := Resolve(ScrapeFor(src, first, more, currentYear), search, fetch);
            var f := Finish(r.state, CacheKey(src), outcome);
            && (first.Fail? ==> f.served == [] && f.state.cache == s.cache)
            && CacheKey(src) !in f.state.inFlight
            && forall i :: 0 <= i < |f.served| ==> StartsWith(f.served[i].id, "tt")
  {
    var r := Request(s, CacheKey(src), now);
    assert r.state.limiter.queue == s.limiter.queue;
    assert CacheKey(src) !in s.inFlight;
    assert CacheKey(src) !in s.limiter.queue;
  }

  /** A one-entry list resolves to that entry's record, or to an empty
      (cached) list when it does not resolve. */
  lemma ResolveSingle(e: ScrapedEntry, search: SearchQuery -> Result<seq<Candidate>>, fetch: nat -> Result<Details>)
    ensures var m := ResolveEntry(e, search, fetch);
            Resolve(Ok([e]), search, fetch) == Computed(if m.Some? then [m.value] else [])
  {
    var all := ResolveAll([e], search, fetch);
    assert all == [ResolveEntry(e, search, fetch)];
    assert all[1..] == [];
  }

  /** Resolving a list is resolving its two halves and joining the
      answers: with ResolveSingle this fixes the result as the resolved
      entries in list order, each as often as it resolved. */
  lemma ResolveAppend(a: seq<ScrapedEntry>, b: seq<ScrapedEntry>,
                      search: SearchQuery -> Result<seq<Candidate>>, fetch: nat -> Result<Details>)
    ensures Resolve(Ok(a + b), search, fetch).data
            == Resolve(Ok(a), search, fetch).data + Resolve(Ok(b), search, fetch).data
  {
    if |a| == 0 {
      assert a + b == b;
    } else if |b| == 0 {
      assert a + b == a;
    } else {
      ResolveAllAppend(a, b, search, fetch);
      CollectAppend(ResolveAll(a, search, fetch), ResolveAll(b, search, fetch));
    }
  }
}

=== FILE: discover.dfy ===
/** `getBestOfYear` of scraper.js, the variant the addon entry point
    serves: the metadata service's own top-rated list of a year, its
    first twenty results looked up concurrently (`getMovieWithIMDB` under
    `Promise.all`, results kept in discover order), each converted with
    the lenient converter. Any failure of the list call
    ends in `[]`; a failed lookup drops that one movie. */
module Discover {
  import opened Base
  import opened Text
  import opened Tmdb

  /** `response.results.slice(0, 20)` */
  const DiscoverLimit: nat := 20

  function Min(a: nat, b: nat): nat { if a < b then a else b }

  /** `getMovieWithIMDB(id)` followed by the lenient conversion; a failed
      lookup is `null`. */
  function Lookup(details: nat -> Result<Details>, id: nat): (r: Option<Meta>)
    ensures r.Some? <==> details(id).Ok?
  {
    match details(id)
    case Ok(d) => Some(ConvertSimple(WithImdb(d)))
    case Fail(_) => None
  }

  /** The ids that are looked up: at most the first twenty. */
  function Considered(ids: seq<nat>): (r: seq<nat>)
    ensures |r| == Min(|ids|, DiscoverLimit)
    ensures forall i :: 0 <= i < |r| ==> r[i] == ids[i]
  {
    if |ids| <= DiscoverLimit then ids else ids[..DiscoverLimit]
  }

  /** The lookups of the considered ids, in order. */
  function LookedUp(ids: seq<nat>, details: nat -> Result<Details>): (r: seq<Option<Meta>>)
    ensures |r| == |Considered(ids)|
    ensures forall i :: 0 <= i < |r| ==> r[i] == Lookup(details, ids[i])
  {
    var c := Considered(ids);
    seq(|c|, i requires 0 <= i < |c| => Lookup(details, c[i]))
  }

  /** `getBestOfYear(year)`, given what the discover call answered (the
      ids of its results; a missing list is an empty one) and the lookup
      of one movie. */
  function BestOfYear(discover: Result<seq<nat>>, details: nat -> Result<Details>): (r: seq<Meta>)
    ensures discover.Fail? ==> r == []
    ensures |r| <= DiscoverLimit
    ensures discover.Ok? ==>
              |r| + NoneCount(LookedUp(discover.value, details)) == Min(|discover.value|, DiscoverLimit)
    ensures discover.Ok? ==> forall m :: m in r <==> Some(m) in LookedUp(discover.value, details)
  {
    match discover
    case Fail(_) => []
    case Ok(all) =>
      var looked := LookedUp(all, details);
      CollectLength(looked);
      CollectMembers(looked);
      Collect(looked)
  }

  /** Every movie whose lookup succeeds among the first twenty is served,
      with the id the lenient converter gives it. */
  lemma SuccessfulLookupIsServed(ids: seq<nat>, details: nat -> Result<Details>, j: nat)
    requires j < |ids| && j < DiscoverLimit && details(ids[j]).Ok?
    ensures ConvertSimple(WithImdb(details(ids[j]).value)) in BestOfYear(Ok(ids), details)
  {
    assert LookedUp(ids, details)[j] == Some(ConvertSimple(WithImdb(details(ids[j]).value)));
  }

  /** Results past the twentieth are never looked at. */
  lemma {:induction false} OnlyFirstTwenty(ids: seq<nat>, extra: seq<nat>, details: nat -> Result<Details>)
    requires |ids| >= DiscoverLimit
    ensures BestOfYear(Ok(ids + extra), details) == BestOfYear(Ok(ids), details)
  {
    assert Considered(ids + extra) == Considered(ids);
  }

  /** When every lookup succeeds, the answer lists the first twenty
      results in the service's order. */
  lemma AllFoundKeepsOrder(ids: seq<nat>, details: nat -> Result<Details>)
    requires forall i :: 0 <= i < |ids| ==> details(ids[i]).Ok?
    ensures var r := BestOfYear(Ok(ids), details);
            |r| == Min(|ids|, DiscoverLimit)
            && forall i :: 0 <= i < |r| ==> r[i] == ConvertSimple(WithImdb(details(ids[i]).value))
  {
    AllPresent(LookedUp(ids, details));
  }

  /** Within the first twenty, the answer for a list of ids is the
      answers for its two parts joined: with LookupOne this fixes the
      result as the successful lookups in the service's order. */
  lemma BestOfYearAppend(a: seq<nat>, b: seq<nat>, details: nat -> Result<Details>)
    requires |a| + |b| <= DiscoverLimit
    ensures BestOfYear(Ok(a + b), details) == BestOfYear(Ok(a), details) + BestOfYear(Ok(b), details)
  {
    assert LookedUp(a + b, details) == LookedUp(a, details) + LookedUp(b, details);
    CollectAppend(LookedUp(a, details), LookedUp(b, details));
  }

  /** One id gives its converted lookup, or nothing when the lookup fails. */
  lemma LookupOne(id: nat, details: nat -> Result<Details>)
    ensures BestOfYear(Ok([id]), details)
            == if details(id).Ok? then [ConvertSimple(WithImdb(details(id).value))] else []
  {
    var looked := LookedUp([id], details);
    assert looked == [Lookup(details, id)];
    assert looked[1..] == [];
  }
}

=== FILE: matcher.dfy ===
/** `findBestMatch`: picks one result of a title search. One pass over
    the results in order; marker titles (making-of, documentaries,
    trailers) are skipped; every other result is scored and the first
    result with the strictly highest score wins; when nothing was picked
    the first result is returned anyway. There is no minimum score. */
module Matcher {
  import opened Base
  import opened Text

  /** One search result. `releaseYear` is the parsed first four characters
      of `release_date`; None stands for a missing date and for a year
      that does not parse (both are falsy to the matcher). An absent
      popularity is 0. */
  datatype Candidate = Candidate(id: nat, title: string, releaseYear: Option<int>, popularity: real)

  /** The scoring context: the title and year searched for (the year
      already passed through `searchYear ? parseInt(searchYear) : null`)
      and the original title, if the scraped entry had one. */
  datatype Query = Query(searchTitle: string, searchYear: Option<int>, originalTitle: Option<string>)

  /** `searchYear ? parseInt(searchYear) : null` on an integer year. */
  function YearNum(year: int): (r: Option<int>)
    ensures r.Some? <==> year != 0
    ensures r.Some? ==> r.value == year
  {
    if year == 0 then None else Some(year)
  }

  /** Titles that are never scored: the lowercased title contains one of
      the marker phrases. */
  predicate IsMarkerTitle(title: string)
  {
    var t := Lower(title);
    Contains(t, "making of") || Contains(t, "behind the scenes") || Contains(t, "documentary")
    || Contains(t, "trailer") || Contains(t, "the making of")
  }

  /** A case-insensitive match with the original title. */
  predicate MatchesOriginal(c: Candidate, q: Query)
  {
    TruthyText(q.originalTitle) && Lower(c.title) == Lower(q.originalTitle.value)
  }

  /** The title component: 200 for the original title, else 100 for the
      search title, else 50 when one contains the other, else 0. */
  function TitlePart(c: Candidate, q: Query): (r: int)
    ensures r == 200 <==> MatchesOriginal(c, q)
    ensures r == 100 <==> !MatchesOriginal(c, q) && Lower(c.title) == Lower(q.searchTitle)
    ensures r == 50 <==> !MatchesOriginal(c, q) && Lower(c.title) != Lower(q.searchTitle)
                         && (Contains(Lower(c.title), Lower(q.searchTitle)) || Contains(Lower(q.searchTitle), Lower(c.title)))
    ensures r == 0 || r == 50 || r == 100 || r == 200
  {
    var title := Lower(c.title);
    var search := Lower(q.searchTitle);
    if MatchesOriginal(c, q) then 200
    else if title == search then 100
    else if Contains(title, search) || Contains(search, title) then 50
    else 0
  }

  function Abs(x: int): nat { if x < 0 then -x else x }

  /** The year component: 30 for the searched year, 10 for a (non-zero)
      year one off, 0 otherwise or when no year was searched. */
  function YearPart(c: Candidate, q: Query): (r: int)
    ensures r == 30 <==> q.searchYear.Some? && c.releaseYear == q.searchYear
    ensures r == 10 <==> c.releaseYear.Some? && c.releaseYear.value != 0 && q.searchYear.Some?
                         && Abs(c.releaseYear.value - q.searchYear.value) == 1
    ensures r == 0 || r == 10 || r == 30
  {
    if q.searchYear.Some? && c.releaseYear == q.searchYear then 30
    else if q.searchYear.Some? && c.releaseYear.Some? && c.releaseYear.value != 0
            && Abs(c.releaseYear.value - q.searchYear.value) <= 1 then 10
    else 0
  }

  /** `Math.min(popularity, 10)`. */
  function PopularityPart(c: Candidate): (r: real)
    ensures r <= 10.0 && r <= c.popularity
    ensures r == c.popularity || r == 10.0
  {
    if c.popularity < 10.0 then c.popularity else 10.0
  }

  function Score(c: Candidate, q: Query): real
  {
    TitlePart(c, q) as real + YearPart(c, q) as real + PopularityPart(c)
  }

  /** Only an original-title match scores above 100+30+10. */
  lemma HighScoreNeedsOriginal(c: Candidate, q: Query)
    ensures Score(c, q) > 140.0 ==> MatchesOriginal(c, q)
  {
  }

  /** A result that can be picked: not a marker title, and scoring above
      the initial best score of -1. */
  predicate Eligible(results: seq<Candidate>, q: Query, j: int)
    requires 0 <= j < |results|
  {
    !IsMarkerTitle(results[j].title) && Score(results[j], q) > -1.0
  }

  /** Index `k` is the first result with the highest score among the
      results that are not marker titles. */
  predicate IsFirstBest(results: seq<Candidate>, q: Query, k: int)
  {
    && 0 <= k < |results|
    && Eligible(results, q, k)
    && (forall j :: 0 <= j < |results| && !IsMarkerTitle(results[j].title) ==>
          Score(results[j], q) <= Score(results[k], q))
    && (forall j :: 0 <= j < k && !IsMarkerTitle(results[j].title) ==>
          Score(results[j], q) < Score(results[k], q))
  }

  predicate NoneEligible(results: seq<Candidate>, q: Query)
  {
    forall j :: 0 <= j < |results| ==> !Eligible(results, q, j)
  }

  /** The loop state after `i` results: the best so far and its score. */
  predicate ScanState(results: seq<Candidate>, q: Query, i: int, best: Option<nat>, bestScore: real)
  {
    && 0 <= i <= |results|
    && (best.None? ==> bestScore == -1.0 && forall j :: 0 <= j < i ==> !Eligible(results, q, j))
    && (best.Some? ==>
          && best.value < i
          && Eligible(results, q, best.value)
          && Score(results[best.value], q) == bestScore
          && (forall j :: 0 <= j < i && !IsMarkerTitle(results[j].title) ==> Score(results[j], q) <= bestScore)
          && (forall j :: 0 <= j < best.value && !IsMarkerTitle(results[j].title) ==>
                Score(results[j], q) < bestScore))
  }

  /** Taking a strictly better result keeps the loop state. */
  lemma NewBest(results: seq<Candidate>, q: Query, i: nat, best: Option<nat>, bestScore: real)
    requires ScanState(results, q, i, best, bestScore) && i < |results|
    requires !IsMarkerTitle(results[i].title) && Score(results[i], q) > bestScore
    ensures ScanState(results, q, i + 1, Some(i), Score(results[i], q))
  {
    forall j | 0 <= j < i && !IsMarkerTitle(results[j].title)
      ensures Score(results[j], q) < Score(results[i], q)
    {
      if best.None? {
        assert !Eligible(results, q, j);
      }
    }
  }

  /** Passing over a result that does not beat the best keeps the loop
      state. */
  lemma Pass(results: seq<Candidate>, q: Query, i: nat, best: Option<nat>, bestScore: real)
    requires ScanState(results, q, i, best, bestScore) && i < |results|
    requires IsMarkerTitle(results[i].title) || Score(results[i], q) <= bestScore
    ensures ScanState(results, q, i + 1, best, bestScore)
  {
    if best.None? && !IsMarkerTitle(results[i].title) {
      assert !Eligible(results, q, i);
    }
  }

  /** The scoring loop from position `i` on, keeping the strictly greater
      best (`if (score > bestScore)`). */
  function Scan(results: seq<Candidate>, q: Query, i: nat, best: Option<nat>, bestScore: real): (k: Option<nat>)
    requires ScanState(results, q, i, best, bestScore)
    ensures k.Some? ==> IsFirstBest(results, q, k.value)
    ensures k.None? ==> NoneEligible(results, q)
    decreases |results| - i
  {
    if i == |results| then best
    else
      var c := results[i];
      if !IsMarkerTitle(c.title) && Score(c, q) > bestScore then
        NewBest(results, q, i, best, bestScore);
        Scan(results, q, i + 1, Some(i), Score(c, q))
      else
        Pass(results, q, i, best, bestScore);
        Scan(results, q, i + 1, best, bestScore)
  }

  /** What the matcher returns, stated without the loop: nothing for no
      results; otherwise the first best-scoring non-marker result, or the
      first result when no result is eligible. */
  predicate Chosen(results: seq<Candidate>, q: Query, r: Option<Candidate>)
  {
    if |results| == 0 then r.None?
    else if NoneEligible(results, q) then r == Some(results[0])
    else exists k :: 0 <= k < |results| && IsFirstBest(results, q, k) && r == Some(results[k])
  }

  /** `findBestMatch(searchResults, searchTitle, searchYear, originalTitle)`. */
  function FindBestMatch(results: seq<Candidate>, searchTitle: string, searchYear: int,
                         originalTitle: Option<string>): (r: Option<Candidate>)
    ensures r.None? <==> |results| == 0
    ensures r.Some? ==> r.value in results
    ensures Chosen(results, Query(searchTitle, YearNum(searchYear), originalTitle), r)
  {
    if |results| == 0 then None
    else
      var q := Query(searchTitle, YearNum(searchYear), originalTitle);
      match Scan(results, q, 0, None, -1.0)
      case Some(k) => Some(results[k])
      case None => Some(results[0])
  }

  /** The declarative description pins down one index: there is at most
      one first best result, so `Chosen` determines the answer. */
  lemma FirstBestUnique(results: seq<Candidate>, q: Query, k1: int, k2: int)
    requires IsFirstBest(results, q, k1) && IsFirstBest(results, q, k2)
    ensures k1 == k2
  {
  }

  /** `Chosen` is a complete description of the matcher: any answer it
      allows is the one `FindBestMatch` returns. */
  lemma ChosenIsFindBestMatch(results: seq<Candidate>, searchTitle: string, searchYear: int,
                              originalTitle: Option<string>, r: Option<Candidate>)
    requires Chosen(results, Query(searchTitle, YearNum(searchYear), originalTitle), r)
    ensures r == FindBestMatch(results, searchTitle, searchYear, originalTitle)
  {
    var q := Query(searchTitle, YearNum(searchYear), originalTitle);
    var m := FindBestMatch(results, searchTitle, searchYear, originalTitle);
    if |results| > 0 && !NoneEligible(results, q) {
      var k1 :| 0 <= k1 < |results| && IsFirstBest(results, q, k1) && r == Some(results[k1]);
      var k2 :| 0 <= k2 < |results| && IsFirstBest(results, q, k2) && m == Some(results[k2]);
      FirstBestUnique(results, q, k1, k2);
    }
  }

  /** Whenever some result is eligible, the picked result is not a marker
      title: a marker title is only ever returned as the fallback first
      result. */
  lemma PickedIsNotMarker(results: seq<Candidate>, searchTitle: string, searchYear: int,
                          originalTitle: Option<string>)
    requires !NoneEligible(results, Query(searchTitle, YearNum(searchYear), originalTitle))
    ensures var r := FindBestMatch(results, searchTitle, searchYear, originalTitle);
            r.Some? && !IsMarkerTitle(r.value.title)
  {
    var q := Query(searchTitle, YearNum(searchYear), originalTitle);
    var r := FindBestMatch(results, searchTitle, searchYear, originalTitle);
    var k :| 0 <= k < |results| && IsFirstBest(results, q, k) && r == Some(results[k]);
    assert Eligible(results, q, k);
  }

  /** A non-marker result matching the original title (with the
      non-negative popularity the metadata service reports) beats every
      result that does not match it: the picked result matches too. */
  lemma OriginalTitleWins(results: seq<Candidate>, searchTitle: string, searchYear: int,
                          originalTitle: Option<string>, j: nat)
    requires j < |results|
    requires !IsMarkerTitle(results[j].title) && results[j].popularity >= 0.0
    requires MatchesOriginal(results[j], Query(searchTitle, YearNum(searchYear), originalTitle))
    ensures var r := FindBestMatch(results, searchTitle, searchYear, originalTitle);
            r.Some? && MatchesOriginal(r.value, Query(searchTitle, YearNum(searchYear), originalTitle))
  {
    var q := Query(searchTitle, YearNum(searchYear), originalTitle);
    var r := FindBestMatch(results, searchTitle, searchYear, originalTitle);
    assert Score(results[j], q) >= 200.0;
    assert Eligible(results, q, j);
    var k :| 0 <= k < |results| && IsFirstBest(results, q, k) && r == Some(results[k]);
    assert Score(results[k], q) >= 200.0;
    HighScoreNeedsOriginal(results[k], q);
  }

  /** Without an original-title match, a result with the searched title
      (case-insensitively) and the searched year is never beaten by one
      that only contains the title or lies a year off: whatever is picked
      has both the searched title and the searched year. */
  lemma ExactMatchWins(results: seq<Candidate>, searchTitle: string, searchYear: int,
                       originalTitle: Option<string>, j: nat)
    requires j < |results| && searchYear != 0
    requires !IsMarkerTitle(results[j].title) && results[j].popularity >= 0.0
    requires Lower(results[j].title) == Lower(searchTitle) && results[j].releaseYear == Some(searchYear)
    requires forall i :: 0 <= i < |results| ==>
               !MatchesOriginal(results[i], Query(searchTitle, YearNum(searchYear), originalTitle))
    ensures var r := FindBestMatch(results, searchTitle, searchYear, originalTitle);
            r.Some? && Lower(r.value.title) == Lower(searchTitle) && r.value.releaseYear == Some(searchYear)
  {
    var q := Query(searchTitle, YearNum(searchYear), originalTitle);
    var r := FindBestMatch(results, searchTitle, searchYear, originalTitle);
    assert TitlePart(results[j], q) == 100;
    assert Score(results[j], q) >= 130.0;
    assert Eligible(results, q, j);
    var k :| 0 <= k < |results| && IsFirstBest(results, q, k) && r == Some(results[k]);
    assert Score(results[k], q) >= 130.0;
    assert !MatchesOriginal(results[k], q);
    assert TitlePart(results[k], q) == 100;
    assert YearPart(results[k], q) == 30;
  }

  /** Ties go to the earlier result: a later result with the same score
      as the picked one is never picked. */
  lemma EarliestOfTies(results: seq<Candidate>, searchTitle: string, searchYear: int,
                       originalTitle: Option<string>, i: nat, j: nat)
    requires i < j < |results|
    requires Eligible(results, Query(searchTitle, YearNum(searchYear), originalTitle), i)
    requires !IsMarkerTitle(results[j].title)
    requires Score(results[i], Query(searchTitle, YearNum(searchYear), originalTitle))
          == Score(results[j], Query(searchTitle, YearNum(searchYear), originalTitle))
    ensures forall k :: IsFirstBest(results, Query(searchTitle, YearNum(searchYear), originalTitle), k) ==> k != j
  {
  }

  /** A lone result is always the answer, whatever it scores and even
      when it is a marker title. */
  lemma SingleResult(c: Candidate, searchTitle: string, searchYear: int, originalTitle: Option<string>)
    ensures FindBestMatch([c], searchTitle, searchYear, originalTitle) == Some(c)
  {
  }
}

=== FILE: ratelimit.dfy ===
/** The two concurrency limiters (`rateLimitedRequest` for HTTP and
    metadata calls, `rateLimitedCatalogRequest` for whole catalogs) as a
    discrete state machine. A task is submitted; it starts at once when a
    slot is free and otherwise waits in a FIFO queue; when a running task
    settles (either way, the `finally`) its slot is released and the
    oldest waiting task is started in that slot. The artificial delay
    before each HTTP call is not modelled. */
module RateLimit {
  import opened Base

  /** `MAX_CONCURRENT_REQUESTS` */
  const MaxConcurrentRequests: nat := 6
  /** `MAX_CONCURRENT_CATALOGS` */
  const MaxConcurrentCatalogs: nat := 3

  datatype Limiter<T> = Limiter(cap: nat, active: nat, queue: seq<T>)

  /** The state every reachable limiter is in: never more running tasks
      than the cap, and nobody waits while a slot is free. */
  predicate Valid<T>(l: Limiter<T>)
  {
    l.active <= l.cap && (|l.queue| > 0 ==> l.active == l.cap)
  }

  /** A limiter with nothing running and nothing waiting. */
  function Idle<T>(cap: nat): (l: Limiter<T>)
    ensures Valid(l) && l.active == 0 && l.queue == [] && l.cap == cap
  {
    Limiter(cap, 0, [])
  }

  /** `rateLimitedRequest`'s limiter at start-up: at most six HTTP or
      metadata calls run at once. */
  function RequestLimiter<T>(): (l: Limiter<T>)
    ensures Valid(l) && l.cap == MaxConcurrentRequests && l.active == 0 && l.queue == []
  {
    Idle(MaxConcurrentRequests)
  }

  /** `rateLimitedCatalogRequest`'s limiter at start-up: at most three
      catalogs resolve at once. */
  function CatalogLimiter<T>(): (l: Limiter<T>)
    ensures Valid(l) && l.cap == MaxConcurrentCatalogs && l.active == 0 && l.queue == []
  {
    Idle(MaxConcurrentCatalogs)
  }

  /** The limiter after an event, and the task the event started, if any. */
  datatype Step<T> = Step(limiter: Limiter<T>, started: Option<T>)

  /** `execute()`: start the task when below the cap, otherwise queue it. */
  function Submit<T>(l: Limiter<T>, t: T): (r: Step<T>)
    requires Valid(l)
    ensures Valid(r.limiter) && r.limiter.cap == l.cap
    ensures r.started == Some(t) <==> l.active < l.cap
    ensures r.started.None? <==> l.active == l.cap
    ensures r.started.Some? ==> r.limiter.active == l.active + 1 && r.limiter.queue == l.queue == []
    ensures r.started.None? ==> r.limiter.active == l.active && r.limiter.queue == l.queue + [t]
  {
    if l.active >= l.cap then Step(l.(queue := l.queue + [t]), None)
    else Step(l.(active := l.active + 1), Some(t))
  }

  /** The `finally` of a running task: release the slot, then start the
      oldest waiting task (whose `execute()` takes the slot straight back). */
  function Complete<T>(l: Limiter<T>): (r: Step<T>)
    requires Valid(l) && l.active > 0
    ensures Valid(r.limiter) && r.limiter.cap == l.cap
    ensures |l.queue| > 0 ==> r.started == Some(l.queue[0]) && r.limiter.queue == l.queue[1..]
                              && r.limiter.active == l.active
    ensures |l.queue| == 0 ==> r.started.None? && r.limiter.queue == [] && r.limiter.active == l.active - 1
  {
    var released := l.(active := l.active - 1);
    if |released.queue| > 0 then
      Step(Limiter(l.cap, released.active + 1, released.queue[1..]), Some(released.queue[0]))
    else Step(released, None)
  }

  datatype Event<T> = SubmitTask(task: T) | CompleteOne

  /** One event; a completion with nothing running is ignored (it cannot
      happen in the addon: only a running task can settle). */
  function Apply<T>(l: Limiter<T>, e: Event<T>): (r: Step<T>)
    requires Valid(l)
    ensures Valid(r.limiter) && r.limiter.cap == l.cap
  {
    match e
    case SubmitTask(t) => Submit(l, t)
    case CompleteOne => if l.active > 0 then Complete(l) else Step(l, None)
  }

  /** One event neither loses nor reorders a task: the task it started,
      followed by the queue after it, is the queue before it followed by
      the task it submitted. */
  lemma ApplyIsFifo<T>(l: Limiter<T>, e: Event<T>)
    requires Valid(l)
    ensures var r := Apply(l, e);
            (if r.started.Some? then [r.started.value] else []) + r.limiter.queue
            == l.queue + (if e.SubmitTask? then [e.task] else [])
  {
    if e.CompleteOne? && l.active > 0 && |l.queue| > 0 {
      assert [l.queue[0]] + l.queue[1..] == l.queue;
    }
  }

  /** The tasks submitted by a sequence of events, in submission order. */
  function Submitted<T>(events: seq<Event<T>>): seq<T>
  {
    if |events| == 0 then []
    else (if events[0].SubmitTask? then [events[0].task] else []) + Submitted(events[1..])
  }

  /** Replays events. Returns the final limiter and the tasks started, in order. */
  function Run<T>(l: Limiter<T>, events: seq<Event<T>>): (r: (Limiter<T>, seq<T>))
    requires Valid(l)
    ensures Valid(r.0) && r.0.cap == l.cap
    decreases |events|
  {
    if |events| == 0 then (l, [])
    else
      var step := Apply(l, events[0]);
      var rest := Run(step.limiter, events[1..]);
      (rest.0, (if step.started.Some? then [step.started.value] else []) + rest.1)
  }

  /** Regrouping the concatenations of one replay step. */
  lemma Regroup<T>(head: seq<T>, started: seq<T>, queue: seq<T>, mid: seq<T>, later: seq<T>,
                   queue0: seq<T>, sub: seq<T>)
    requires started + queue == mid + later
    requires head + mid == queue0 + sub
    ensures head + started + queue == queue0 + (sub + later)
  {
    calc {
      head + started + queue;
      head + (mid + later);
      (head + mid) + later;
    }
  }

  /** Strict FIFO: the tasks started so far, followed by the tasks still
      waiting, are exactly the waiting tasks at the outset followed by the
      submitted tasks in submission order. No task overtakes another. */
  lemma {:induction false} RunIsFifo<T>(l: Limiter<T>, events: seq<Event<T>>)
    requires Valid(l)
    ensures Run(l, events).1 + Run(l, events).0.queue == l.queue + Submitted(events)
    decreases |events|
  {
    if |events| > 0 {
      var step := Apply(l, events[0]);
      RunIsFifo(step.limiter, events[1..]);
      var rest := Run(step.limiter, events[1..]);
      var head := if step.started.Some? then [step.started.value] else [];
      var sub := if events[0].SubmitTask? then [events[0].task] else [];
      assert Run(l, events) == (rest.0, head + rest.1);
      assert Submitted(events) == sub + Submitted(events[1..]);
      ApplyIsFifo(l, events[0]);
      Regroup(head, rest.1, rest.0.queue, step.limiter.queue, Submitted(events[1..]), l.queue, sub);
    }
  }

  /** No task is lost or duplicated: every submitted task has either been
      started or is still waiting. */
  lemma {:induction false} RunConserves<T>(l: Limiter<T>, events: seq<Event<T>>)
    requires Valid(l)
    ensures |Run(l, events).1| + |Run(l, events).0.queue| == |l.queue| + |Submitted(events)|
  {
    RunIsFifo(l, events);
    assert |Run(l, events).1 + Run(l, events).0.queue| == |l.queue + Submitted(events)|;
  }

  /** Whatever calls are submitted and settle, never more than six run at
      once, and a call waits only while all six slots are taken. */
  lemma {:induction false} RequestsStayBounded<T>(events: seq<Event<T>>)
    ensures var l := Run(RequestLimiter<T>(), events).0;
            l.active <= 6 && (|l.queue| > 0 ==> l.active == 6)
  {
    var l0 := RequestLimiter<T>();
    assert Valid(l0) && l0.cap == 6;
  }
}

=== FILE: scenarios.dfy ===
/** A worked example: one list resolved end to end. */
module Scenarios {
  import opened Base
  import opened Text
  import opened Tmdb
  import opened Matcher
  import opened Search
  import opened Scrape
  import opened Catalog

  /** The details the service returns for id 42. */
  function CorvoDetails(): Details
  {
    Details(42, "Il Corvo", None, None, None, None, 0.0, None, 0, None, Some("tt1234567"))
  }

  /** The one search result the service has for any query. */
  function CorvoResult(): Candidate
  {
    Candidate(42, "Il Corvo", Some(2024), 0.0)
  }

  /** A search service that finds only id 42. */
  function CorvoSearch(q: SearchQuery): Result<seq<Candidate>>
  {
    Ok([CorvoResult()])
  }

  /** A details service that knows only id 42. */
  function CorvoFetch(id: nat): Result<Details>
  {
    if id == 42 then Ok(CorvoDetails()) else Fail("not found")
  }

  /** The scraped entry: a title of 2024 without rating or original title. */
  function CorvoEntry(): ScrapedEntry
  {
    ScrapedEntry("Il Corvo", 2024, None, None)
  }

  /** The details convert to an entry under their IMDb id. */
  lemma CorvoConverts()
    ensures var m := ConvertSafe(WithRating(WithImdb(CorvoDetails()), None));
            m.Some? && m.value.id == "tt1234567" && m.value.name == "Il Corvo"
  {
    var mv := WithRating(WithImdb(CorvoDetails()), None);
    assert TruthyText(Some("tt1234567"));
    assert mv.imdbId == Some("tt1234567");
    assert StartsWith("tt1234567", "tt");
    assert IsImdbId(mv.imdbId);
  }

  /** The entry alone resolves to the movie under its IMDb id. */
  lemma CorvoEntryResolves()
    ensures var m := ResolveEntry(CorvoEntry(), CorvoSearch, CorvoFetch);
            m.Some? && m.value.id == "tt1234567" && m.value.name == "Il Corvo"
  {
    assert CorvoSearch(SearchQuery("Il Corvo", Some(2024))) == Ok([CorvoResult()]);
    FoundOnFirstSearch("Il Corvo", 2024, None, None, CorvoSearch, CorvoFetch, CorvoResult());
    assert CorvoFetch(CorvoResult().id) == Ok(CorvoDetails());
    CorvoConverts();
    assert ResolveEntry(CorvoEntry(), CorvoSearch, CorvoFetch)
        == SearchMovie("Il Corvo", 2024, None, None, CorvoSearch, CorvoFetch);
  }

  /** A list of one scraped title, found by the first search, whose
      details carry an IMDb id, resolves to one entry with that id. */
  lemma OneTitleEndToEnd()
    ensures var r := Resolve(Ok([CorvoEntry()]), CorvoSearch, CorvoFetch);
            r.Computed? && |r.data| == 1 && r.data[0].id == "tt1234567" && r.data[0].name == "Il Corvo"
  {
    CorvoEntryResolves();
    ResolveSingle(CorvoEntry(), CorvoSearch, CorvoFetch);
  }
}

=== FILE: scrape.dfy ===
/** What the resolver keeps of a scraped list page: the heading titles
    that pass the filter, each title once, in page order, over up to two
    pages sharing one `seen` set. Fetching and DOM traversal are left to
    the caller: a page arrives as its headings, each heading as the text
    the numbering pattern captured (None when it did not match), the
    rating the article shows and the text after "Titolo originale". */
module Scrape {
  import opened Base
  import opened Text

  /** `PAGES_TO_SCRAPE` */
  const PagesToScrape: nat := 2
  /** Titles shorter than this are page furniture, not films. */
  const MinTitleLength: nat := 3

  datatype Heading = Heading(captured: Option<string>, rating: Option<real>, originalText: Option<string>)

  /** A heading the numbering pattern matched, read: its cleaned title,
      its rating and its original title. */
  datatype Found = Found(title: string, rating: Option<real>, originalTitle: Option<string>)

  datatype ScrapedEntry = ScrapedEntry(title: string, year: int, rating: Option<real>, originalTitle: Option<string>)

  /** `title.split('\n')[0].split('\t')[0].trim()` on the trimmed capture. */
  function CleanTitle(captured: string): (r: string)
    ensures |r| > 0 ==> !IsSpace(r[0]) && !IsSpace(r[|r| - 1])
    ensures '\t' !in r
  {
    Trim(TakeUntil(TakeUntil(Trim(captured), '\n'), '\t'))
  }

  /** `s` starts with white space only, up to its end or up to its first
      line break or tab. */
  predicate BlankToBreak(s: string)
    decreases |s|
  {
    |s| == 0 || s[0] == '\n' || s[0] == '\t' || (IsSpace(s[0]) && BlankToBreak(s[1..]))
  }

  /** A run of `k` white-space characters that ends the text or meets a
      line break or tab. */
  lemma {:induction false} BlankRun(s: string, k: nat)
    requires k <= |s|
    requires forall i :: 0 <= i < k ==> IsSpace(s[i])
    requires k == |s| || s[k] == '\n' || s[k] == '\t'
    ensures BlankToBreak(s)
    decreases k
  {
    if k > 0 && s[0] != '\n' && s[0] != '\t' {
      BlankRun(s[1..], k - 1);
    }
  }

  /** The steps of `CleanTitle` past the first trim, on a text starting
      with a non-space character, stated by what each step keeps: `u`
      drops trailing white space, `a` cuts at the first line break, `b`
      at the first tab, and `r` drops trailing white space again. What is
      left is a non-empty prefix followed by blanks up to a break. */
  lemma CutsLeaveSegment(t: string, u: string, a: string, b: string, r: string)
    requires |t| > 0 && !IsSpace(t[0])
    requires StartsWith(t, u) && forall i :: |u| <= i < |t| ==> IsSpace(t[i])
    requires StartsWith(u, a) && '\n' !in a && (|a| == |u| || u[|a|] == '\n')
    requires StartsWith(a, b) && '\t' !in b && (|b| == |a| || a[|b|] == '\t')
    requires StartsWith(b, r) && (forall i :: |r| <= i < |b| ==> IsSpace(b[i]))
    ensures StartsWith(t, r) && BlankToBreak(t[|r|..]) && '\n' !in r && '\t' !in r && r != ""
  {
    assert u[0] == t[0];
    assert |b| > 0 && b[0] == t[0];
    assert forall i :: 0 <= i < |b| ==> b[i] == a[i] && a[i] == u[i] && u[i] == t[i];
    assert forall i :: 0 <= i < |r| ==> r[i] == b[i];
    assert forall c :: c in r ==> c in b && c in a;
    var rest := t[|r|..];
    if |b| < |a| {
      BlankRun(rest, |b| - |r|);
    } else if |a| < |u| {
      BlankRun(rest, |b| - |r|);
    } else {
      BlankRun(rest, |t| - |r|);
    }
  }

  /** The cleaned title is the first segment of the capture: it starts at
      the capture's first non-space character, holds no line break or
      tab, ends on a non-space character, and is followed only by white
      space up to the next line break or tab (or the end). It is empty
      only for a blank capture. */
  lemma CleanTitleSegment(captured: string)
    ensures var t := TrimStart(captured);
            var r := CleanTitle(captured);
            && StartsWith(t, r)
            && BlankToBreak(t[|r|..])
            && '\n' !in r && '\t' !in r
            && (r == "" <==> t == "")
  {
    var t := TrimStart(captured);
    var u := TrimEnd(t);
    assert Trim(captured) == u;
    var a := TakeUntil(u, '\n');
    var b := TakeUntil(a, '\t');
    assert CleanTitle(captured) == Trim(b);
    if t == "" {
      assert u == "" && a == "" && b == "";
    } else {
      assert |b| > 0 && b[0] == t[0] by {
        assert |u| > 0 && u[0] == t[0];
      }
      assert TrimStart(b) == b;
      CutsLeaveSegment(t, u, a, b, TrimEnd(b));
    }
  }

  /** The substrings that mark a heading as something other than a film. */
  predicate Blacklisted(title: string)
  {
    Contains(title, "La recensione") || Contains(title, "Uscito in Italia")
    || Contains(title, "Uscita in Italia") || Contains(title, "streaming") || Contains(title, "migliori")
  }

  /** A title kept on its own merits, before duplicates are considered. */
  predicate Acceptable(title: string)
  {
    |title| >= MinTitleLength && !Blacklisted(title)
  }

  /** A rating is kept only inside 0..10. */
  function RatingOf(h: Heading): (r: Option<real>)
    ensures r.Some? <==> h.rating.Some? && 0.0 <= h.rating.value <= 10.0
    ensures r.Some? ==> r == h.rating
  {
    if h.rating.Some? && 0.0 <= h.rating.value <= 10.0 then h.rating else None
  }

  /** The text after "Titolo originale", trimmed; null when nothing
      follows the label. */
  function OriginalTitleOf(h: Heading): (r: Option<string>)
    ensures r.Some? <==> h.originalText.Some? && exists i :: 0 <= i < |h.originalText.value| && !IsSpace(h.originalText.value[i])
    ensures r.Some? ==> r.value == Trim(h.originalText.value)
    ensures r.Some? ==> r.value != "" && Contains(h.originalText.value, r.value)
  {
    if h.originalText.Some? && Trim(h.originalText.value) != "" then Some(Trim(h.originalText.value)) else None
  }

  /** One heading read: None when the numbering pattern did not match. */
  function Read(h: Heading): (r: Option<Found>)
    ensures r.Some? <==> h.captured.Some?
  {
    if h.captured.Some? then Some(Found(CleanTitle(h.captured.value), RatingOf(h), OriginalTitleOf(h))) else None
  }

  /** Every heading of a page read, in order. */
  function Reads(headings: seq<Heading>): (r: seq<Option<Found>>)
    ensures |r| == |headings|
  {
    if |headings| == 0 then [] else [Read(headings[0])] + Reads(headings[1..])
  }

  /** The headings of a page read in order, unmatched ones dropped. */
  function ReadAll(headings: seq<Heading>): (r: seq<Found>)
    ensures |r| <= |headings|
  {
    Collect(Reads(headings))
  }

  lemma {:induction false} ReadsAppend(a: seq<Heading>, b: seq<Heading>)
    ensures Reads(a + b) == Reads(a) + Reads(b)
  {
    if |a| == 0 {
      assert a + b == b;
    } else {
      assert (a + b)[0] == a[0];
      assert (a + b)[1..] == a[1..] + b;
      ReadsAppend(a[1..], b);
    }
  }

  /** Reading two pages is reading one after the other. */
  lemma ReadAllAppend(a: seq<Heading>, b: seq<Heading>)
    ensures ReadAll(a + b) == ReadAll(a) + ReadAll(b)
  {
    ReadsAppend(a, b);
    CollectAppend(Reads(a), Reads(b));
  }

  /** The titles of headings read, in page order. */
  function Titles(found: seq<Found>): (r: seq<string>)
    ensures |r| == |found| && forall i :: 0 <= i < |r| ==> r[i] == found[i].title
  {
    if |found| == 0 then [] else [found[0].title] + Titles(found[1..])
  }

  /** The titles of kept entries, in list order. */
  function EntryTitles(entries: seq<ScrapedEntry>): (r: seq<string>)
    ensures |r| == |entries| && forall i :: 0 <= i < |r| ==> r[i] == entries[i].title
  {
    if |entries| == 0 then [] else [entries[0].title] + EntryTitles(entries[1..])
  }

  /** `a` is `b` with some elements left out, the rest in order. */
  predicate IsSubsequence(a: seq<string>, b: seq<string>)
  {
    if |a| == 0 then true
    else if |b| == 0 then false
    else (a[0] == b[0] && IsSubsequence(a[1..], b[1..])) || IsSubsequence(a, b[1..])
  }

  /** One heading through the filter: the entry it yields, or None when
      the title is too short, blacklisted or already seen. */
  function Keep(f: Found, seen: set<string>, year: int): (r: Option<ScrapedEntry>)
    ensures r.Some? <==> Acceptable(f.title) && f.title !in seen
    ensures r.Some? ==> r.value == ScrapedEntry(f.title, year, f.rating, f.originalTitle)
  {
    if !Acceptable(f.title) || f.title in seen then None
    else Some(ScrapedEntry(f.title, year, f.rating, f.originalTitle))
  }

  /** The heading filter with its `seen` set: each kept title is added to
      `seen` before the next heading is looked at. */
  function Accept(found: seq<Found>, seen: set<string>, year: int): (r: seq<ScrapedEntry>)
    ensures |r| <= |found|
    ensures forall i :: 0 <= i < |r| ==> Acceptable(r[i].title) && r[i].title !in seen && r[i].year == year
    decreases |found|
  {
    if |found| == 0 then []
    else
      match Keep(found[0], seen, year)
      case Some(e) => [e] + Accept(found[1..], seen + {e.title}, year)
      case None => Accept(found[1..], seen, year)
  }

  /** No title occurs twice. */
  predicate DistinctTitles(entries: seq<ScrapedEntry>)
  {
    forall i, j :: 0 <= i < j < |entries| ==> entries[i].title != entries[j].title
  }

  /** Kept titles are pairwise distinct. */
  lemma {:induction false} AcceptDistinct(found: seq<Found>, seen: set<string>, year: int)
    ensures DistinctTitles(Accept(found, seen, year))
    decreases |found|
  {
    if |found| > 0 {
      match Keep(found[0], seen, year)
      case None =>
        AcceptDistinct(found[1..], seen, year);
        assert Accept(found, seen, year) == Accept(found[1..], seen, year);
      case Some(e) =>
        AcceptDistinct(found[1..], seen + {e.title}, year);
        var tail := Accept(found[1..], seen + {e.title}, year);
        var r := Accept(found, seen, year);
        assert r == [e] + tail;
        forall i, j | 0 <= i < j < |r|
          ensures r[i].title != r[j].title
        {
          assert r[j] == tail[j - 1];
          assert tail[j - 1].title !in seen + {e.title};
          if i == 0 {
            assert r[0] == e;
          } else {
            assert r[i] == tail[i - 1];
            assert tail[i - 1].title != tail[j - 1].title;
          }
        }
    }
  }

  /** Kept titles appear in the input in the same relative order. */
  lemma {:induction false} AcceptInOrder(found: seq<Found>, seen: set<string>, year: int)
    ensures IsSubsequence(EntryTitles(Accept(found, seen, year)), Titles(found))
    decreases |found|
  {
    if |found| > 0 {
      var rest := Titles(found[1..]);
      var all := Titles(found);
      assert all == [found[0].title] + rest;
      assert all[1..] == rest;
      match Keep(found[0], seen, year)
      case None =>
        AcceptInOrder(found[1..], seen, year);
        assert Accept(found, seen, year) == Accept(found[1..], seen, year);
        SubsequenceSkip(EntryTitles(Accept(found[1..], seen, year)), found[0].title, rest);
      case Some(e) =>
        AcceptInOrder(found[1..], seen + {e.title}, year);
        var tail := EntryTitles(Accept(found[1..], seen + {e.title}, year));
        var kept := EntryTitles(Accept(found, seen, year));
        assert Accept(found, seen, year) == [e] + Accept(found[1..], seen + {e.title}, year);
        assert kept == [e.title] + tail;
        assert kept[0] == all[0] && kept[1..] == tail;
    }
  }

  lemma SubsequenceSkip(a: seq<string>, x: string, b: seq<string>)
    requires IsSubsequence(a, b)
    ensures IsSubsequence(a, [x] + b)
  {
    if |a| > 0 {
      assert ([x] + b)[1..] == b;
    }
  }

  /** Nothing acceptable is lost: every acceptable title not seen before
      is kept. */
  lemma {:induction false} AcceptComplete(found: seq<Found>, seen: set<string>, year: int, t: string)
    requires t in Titles(found) && Acceptable(t) && t !in seen
    ensures t in EntryTitles(Accept(found, seen, year))
    decreases |found|
  {
    assert Titles(found) == [found[0].title] + Titles(found[1..]);
    match Keep(found[0], seen, year)
    case None =>
      AcceptComplete(found[1..], seen, year, t);
      assert Accept(found, seen, year) == Accept(found[1..], seen, year);
    case Some(e) =>
      var tail := Accept(found[1..], seen + {e.title}, year);
      assert Accept(found, seen, year) == [e] + tail;
      assert EntryTitles([e] + tail) == [e.title] + EntryTitles(tail);
      if t != e.title {
        AcceptComplete(found[1..], seen + {e.title}, year, t);
      }
  }

  /** The titles kept so far, as a set. */
  function TitleSet(entries: seq<ScrapedEntry>): set<string>
  {
    if |entries| == 0 then {} else {entries[0].title} + TitleSet(entries[1..])
  }

  /** Filtering two pages with one shared `seen` set is filtering the
      first page, then the second with everything the first page kept
      added to `seen`: the pages compose. */
  lemma {:induction false} AcceptAppend(a: seq<Found>, b: seq<Found>, seen: set<string>, year: int)
    ensures Accept(a + b, seen, year) == Accept(a, seen, year) + Accept(b, seen + TitleSet(Accept(a, seen, year)), year)
    decreases |a|
  {
    if |a| == 0 {
      assert a + b == b;
      assert seen + TitleSet([]) == seen;
    } else {
      assert (a + b)[0] == a[0];
      assert (a + b)[1..] == a[1..] + b;
      match Keep(a[0], seen, year)
      case None =>
        AcceptAppend(a[1..], b, seen, year);
      case Some(e) =>
        AcceptAppend(a[1..], b, seen + {e.title}, year);
        var tail := Accept(a[1..], seen + {e.title}, year);
        assert Accept(a, seen, year) == [e] + tail;
        assert TitleSet([e] + tail) == {e.title} + TitleSet(tail) by {
          assert ([e] + tail)[1..] == tail;
        }
        assert seen + {e.title} + TitleSet(tail) == seen + TitleSet([e] + tail);
    }
  }

  /** How many further pages load before the first one that fails. */
  function PagesRead(more: seq<Result<seq<Heading>>>): (k: nat)
    ensures k <= |more|
    ensures forall i :: 0 <= i < k ==> more[i].Ok?
    ensures k < |more| ==> more[k].Fail?
  {
    if |more| == 0 || more[0].Fail? then 0 else 1 + PagesRead(more[1..])
  }

  /** The headings of the pages that loaded, one page after the other. */
  function Loaded(pages: seq<Result<seq<Heading>>>): seq<Heading>
  {
    if |pages| == 0 then []
    else (if pages[0].Ok? then pages[0].value else []) + Loaded(pages[1..])
  }

  /** The headings of all pages read: the first page, then the further
      pages in order until one fails to load (`break`). */
  function PageHeadings(first: seq<Heading>, more: seq<Result<seq<Heading>>>): (r: seq<Heading>)
    ensures |first| <= |r|
    ensures r[..|first|] == first
    ensures r == first + Loaded(more[..PagesRead(more)])
    decreases |more|
  {
    if |more| == 0 || more[0].Fail? then
      assert more[..PagesRead(more)] == [];
      first
    else
      var k := PagesRead(more);
      assert more[..k][0] == more[0] && more[..k][1..] == more[1..][..k - 1];
      PageHeadings(first + more[0].value, more[1..])
  }

  /** The scrape of one list: a failure to load the first page is passed
      on as an error; otherwise the filtered entries of all pages read. */
  function ScrapeList(first: Result<seq<Heading>>, more: seq<Result<seq<Heading>>>, year: int): (r: Result<seq<ScrapedEntry>>)
    requires |more| <= PagesToScrape - 1
    ensures r.Fail? <==> first.Fail?
    ensures r.Ok? ==> DistinctTitles(r.value)
    ensures r.Ok? ==> forall i :: 0 <= i < |r.value| ==> Acceptable(r.value[i].title) && r.value[i].year == year
    ensures r.Ok? ==> var p := Accept(ReadAll(first.value), {}, year);
                      |p| <= |r.value| && r.value[..|p|] == p
    ensures r.Ok? ==> var p := Accept(ReadAll(first.value), {}, year);
                      r.value == p + Accept(ReadAll(Loaded(more[..PagesRead(more)])), TitleSet(p), year)
  {
    if first.Fail? then Fail(first.message)
    else
      var all := PageHeadings(first.value, more);
      var later := all[|first.value|..];
      assert all == first.value + later;
      assert later == Loaded(more[..PagesRead(more)]);
      assert {} + TitleSet(Accept(ReadAll(first.value), {}, year)) == TitleSet(Accept(ReadAll(first.value), {}, year));
      ReadAllAppend(first.value, later);
      AcceptAppend(ReadAll(first.value), ReadAll(later), {}, year);
      AcceptDistinct(ReadAll(all), {}, year);
      Ok(Accept(ReadAll(all), {}, year))
  }

  /** `/anno-(\d{4})/` matches at index `i`. */
  predicate AnnoAt(s: string, i: int)
  {
    0 <= i && i + 9 <= |s| && s[i..i + 5] == "anno-" && AllDigits(s[i + 5..i + 9])
  }

  /** The leftmost match at or after `i`. */
  function FindAnno(s: string, i: nat): (r: Option<nat>)
    ensures r.Some? ==> i <= r.value && AnnoAt(s, r.value)
                        && forall j :: i <= j < r.value ==> !AnnoAt(s, j)
    ensures r.None? ==> forall j :: i <= j ==> !AnnoAt(s, j)
    decreases |s| - i
  {
    if i + 9 > |s| then None
    else if AnnoAt(s, i) then Some(i)
    else FindAnno(s, i + 1)
  }

  /** The search year of a filtered list: the four digits after the first
      `anno-` in the filter, or the current year when there are none. */
  function YearOfFilter(filters: string, currentYear: int): (y: int)
    ensures (forall j :: 0 <= j ==> !AnnoAt(filters, j)) ==> y == currentYear
    ensures forall i :: AnnoAt(filters, i) && (forall j :: 0 <= j < i ==> !AnnoAt(filters, j)) ==>
              y == ParseDigits(filters[i + 5..i + 9])
    ensures (exists j :: AnnoAt(filters, j)) ==> 0 <= y <= 9999
  {
    match FindAnno(filters, 0)
    case Some(i) =>
      var digits := filters[i + 5..i + 9];
      FourDigitBound(digits);
      ParseDigits(digits)
    case None => currentYear
  }

  lemma FourDigitBound(s: string)
    requires |s| == 4 && AllDigits(s)
    ensures ParseDigits(s) <= 9999
  {
    ParseBound(s);
  }

  /** The filter the site uses for one year yields that year back. */
  lemma YearOfYearFilter(y: nat, currentYear: int)
    requires 1000 <= y <= 9999
    ensures YearOfFilter("anno-" + NatToString(y), currentYear) == y
  {
    var s := "anno-" + NatToString(y);
    FourDigits(y);
    assert s[0..5] == "anno-";
    assert s[5..9] == NatToString(y);
    assert AnnoAt(s, 0);
    ParseRender(y);
  }
}

=== FILE: search.dfy ===
/** `searchMovieOnTMDB`: resolve one scraped title to a catalog entry.
    The search and fetch-by-id calls of the metadata service are
    parameters (each returns its answer or the error it threw); every
    error ends in null, as the `catch` blocks of scraper-safe.js do. */
module Search {
  import opened Base
  import opened Text
  import opened Tmdb
  import opened Matcher

  /** One call of `/search/movie`: the query text and the `year` filter. */
  datatype SearchQuery = SearchQuery(text: string, year: Option<int>)

  /** The searches made, in order, and what the last one answered. */
  datatype SearchTrace = SearchTrace(queries: seq<SearchQuery>, outcome: Result<seq<Candidate>>)

  /** An answer with no results (`!results || results.length === 0`). */
  predicate NoResults(a: Result<seq<Candidate>>)
  {
    a.Ok? && |a.value| == 0
  }

  /** The escalation: the local title with the year; then, only when that
      found nothing and a different original title is known, the original
      title with the year; then, only when that also found nothing, the
      original title without a year. A thrown error stops the escalation. */
  function Escalate(title: string, year: int, originalTitle: Option<string>,
                    search: SearchQuery -> Result<seq<Candidate>>): (t: SearchTrace)
    ensures 1 <= |t.queries| <= 3
    ensures t.queries[0] == SearchQuery(title, Some(year))
    ensures |t.queries| >= 2 <==>
              NoResults(search(t.queries[0])) && TruthyText(originalTitle) && originalTitle.value != title
    ensures |t.queries| >= 2 ==> t.queries[1] == SearchQuery(originalTitle.value, Some(year))
    ensures |t.queries| == 3 <==> |t.queries| >= 2 && NoResults(search(t.queries[1]))
    ensures |t.queries| == 3 ==> t.queries[2] == SearchQuery(originalTitle.value, None)
    ensures t.outcome == search(t.queries[|t.queries| - 1])
  {
    var first := SearchQuery(title, Some(year));
    if NoResults(search(first)) && TruthyText(originalTitle) && originalTitle.value != title then
      var second := SearchQuery(originalTitle.value, Some(year));
      if NoResults(search(second)) then
        var third := SearchQuery(originalTitle.value, None);
        SearchTrace([first, second, third], search(third))
      else SearchTrace([first, second], search(second))
    else SearchTrace([first], search(first))
  }

  /** `originalTitle || title`: the title the matcher scores against. */
  function MatchTitle(title: string, originalTitle: Option<string>): (r: string)
    ensures TruthyText(originalTitle) ==> r == originalTitle.value
    ensures !TruthyText(originalTitle) ==> r == title
  {
    if TruthyText(originalTitle) then originalTitle.value else title
  }

  /** The result the matcher picks out of the final answer, if any. */
  function Pick(title: string, year: int, originalTitle: Option<string>, results: seq<Candidate>): Option<Candidate>
  {
    FindBestMatch(results, MatchTitle(title, originalTitle), year, originalTitle)
  }

  /** `searchMovieOnTMDB(title, year, filmtvRating, originalTitle)`. */
  function SearchMovie(title: string, year: int, rating: Option<real>, originalTitle: Option<string>,
                       search: SearchQuery -> Result<seq<Candidate>>,
                       fetch: nat -> Result<Details>): (r: Option<Meta>)
    ensures var t := Escalate(title, year, originalTitle, search);
            r.Some? <==>
              && t.outcome.Ok? && |t.outcome.value| > 0
              && var c := Pick(title, year, originalTitle, t.outcome.value).value;
                 fetch(c.id).Ok? && IsImdbId(WithImdb(fetch(c.id).value).imdbId)
    ensures r.Some? ==>
              var results := Escalate(title, year, originalTitle, search).outcome.value;
              exists i :: 0 <= i < |results| && fetch(results[i].id).Ok?
                          && fetch(results[i].id).value.externalImdbId == Some(r.value.id)
    ensures r.Some? ==>
              var t := Escalate(title, year, originalTitle, search);
              var c := Pick(title, year, originalTitle, t.outcome.value).value;
              && fetch(c.id).Ok?
              && fetch(c.id).value.externalImdbId == Some(r.value.id)
              && r.value.name == fetch(c.id).value.title
    ensures r.Some? ==>
              var t := Escalate(title, year, originalTitle, search);
              var c := Pick(title, year, originalTitle, t.outcome.value).value;
              r == ConvertSafe(WithRating(WithImdb(fetch(c.id).value), rating))
    ensures r.Some? ==> StartsWith(r.value.id, "tt")
    ensures r.Some? ==> (r.value.filmtvRating.Some? <==> TruthyReal(rating))
    ensures r.Some? && TruthyReal(rating) ==> r.value.filmtvRating == rating
  {
    var t := Escalate(title, year, originalTitle, search);
    if t.outcome.Fail? || |t.outcome.value| == 0 then None
    else
      var c := Pick(title, year, originalTitle, t.outcome.value).value;
      assert c in t.outcome.value;
      match fetch(c.id)
      case Fail(_) => None
      case Ok(details) => ConvertSafe(WithRating(WithImdb(details), rating))
  }

  /** When the final answer holds a result (not a marker title, with the
      non-negative popularity the service reports) whose title is the
      scraped original title, the entry is built from a result whose
      title is the original title. */
  lemma SearchPrefersOriginal(title: string, year: int, originalTitle: Option<string>,
                              search: SearchQuery -> Result<seq<Candidate>>, j: nat)
    requires var t := Escalate(title, year, originalTitle, search);
             t.outcome.Ok? && j < |t.outcome.value|
             && !IsMarkerTitle(t.outcome.value[j].title) && t.outcome.value[j].popularity >= 0.0
             && TruthyText(originalTitle)
             && Lower(t.outcome.value[j].title) == Lower(originalTitle.value)
    ensures var results := Escalate(title, year, originalTitle, search).outcome.value;
            var c := Pick(title, year, originalTitle, results);
            c.Some? && c.value in results && Lower(c.value.title) == Lower(originalTitle.value)
  {
    var results := Escalate(title, year, originalTitle, search).outcome.value;
    var q := Query(MatchTitle(title, originalTitle), YearNum(year), originalTitle);
    assert MatchesOriginal(results[j], q);
    OriginalTitleWins(results, MatchTitle(title, originalTitle), year, originalTitle, j);
  }

  /** A first search answering a single result settles the title: no
      further search is made, and the entry is that result's details,
      converted. */
  lemma FoundOnFirstSearch(title: string, year: int, rating: Option<real>, originalTitle: Option<string>,
                           search: SearchQuery -> Result<seq<Candidate>>, fetch: nat -> Result<Details>,
                           c: Candidate)
    requires search(SearchQuery(title, Some(year))) == Ok([c])
    ensures |Escalate(title, year, originalTitle, search).queries| == 1
    ensures SearchMovie(title, year, rating, originalTitle, search, fetch)
            == (if fetch(c.id).Ok? then ConvertSafe(WithRating(WithImdb(fetch(c.id).value), rating)) else None)
  {
    SingleResult(c, MatchTitle(title, originalTitle), year, originalTitle);
  }
}

=== FILE: text.dfy ===
/** String primitives the addon borrows from JavaScript:
    `toLowerCase`, `includes`, `startsWith`, `split(sep)[0]`, `trim`,
    decimal rendering of a number and `parseInt` of a digit run. */
module Text {

  predicate IsUpper(c: char) { 'A' <= c <= 'Z' }

  /** `toLowerCase` on one character, restricted to ASCII letters. */
  function LowerChar(c: char): (r: char)
    ensures IsUpper(c) ==> r as int == c as int + 32
    ensures !IsUpper(c) ==> r == c
    ensures !IsUpper(r)
  {
    if IsUpper(c) then (c as int + 32) as char else c
  }

  function Lower(s: string): (r: string)
    ensures |r| == |s|
    ensures forall i :: 0 <= i < |s| ==> r[i] == LowerChar(s[i])
  {
    if |s| == 0 then [] else [LowerChar(s[0])] + Lower(s[1..])
  }

  predicate StartsWith(s: string, prefix: string)
  {
    |prefix| <= |s| && s[..|prefix|] == prefix
  }

  /** `s.includes(sub)`: `sub` occurs somewhere in `s`. */
  predicate Contains(s: string, sub: string)
    decreases |s|
  {
    StartsWith(s, sub) || (|s| > 0 && Contains(s[1..], sub))
  }

  /** An occurrence at any index makes `Contains` true. */
  lemma {:induction false} AtContains(s: string, sub: string, i: nat)
    requires i + |sub| <= |s| && s[i..i + |sub|] == sub
    ensures Contains(s, sub)
    decreases i
  {
    if i == 0 {
      assert s[..|sub|] == sub;
    } else {
      assert s[1..][i - 1..i - 1 + |sub|] == s[i..i + |sub|];
      AtContains(s[1..], sub, i - 1);
    }
  }

  /** `s.split(sep)[0]`: the text before the first `sep`, or all of `s`. */
  function TakeUntil(s: string, sep: char): (r: string)
    ensures sep !in r
    ensures StartsWith(s, r)
    ensures |r| == |s| || s[|r|] == sep
  {
    if |s| == 0 then []
    else if s[0] == sep then []
    else [s[0]] + TakeUntil(s[1..], sep)
  }

  /** The characters `trim` removes (the ASCII subset of them). */
  predicate IsSpace(c: char)
  {
    c == ' ' || c == '\t' || c == '\n' || c == '\r' || c == '\U{000B}' || c == '\U{000C}'
  }

  /** `s` without its leading white space. */
  function TrimStart(s: string): (r: string)
    ensures |r| <= |s| && r == s[|s| - |r|..]
    ensures |r| > 0 ==> !IsSpace(r[0])
    ensures forall i :: 0 <= i < |s| - |r| ==> IsSpace(s[i])
  {
    if |s| > 0 && IsSpace(s[0]) then TrimStart(s[1..]) else s
  }

  /** `s` without its trailing white space. */
  function TrimEnd(s: string): (r: string)
    ensures StartsWith(s, r)
    ensures |r| > 0 ==> !IsSpace(r[|r| - 1])
    ensures forall i :: |r| <= i < |s| ==> IsSpace(s[i])
  {
    if |s| > 0 && IsSpace(s[|s| - 1]) then TrimEnd(s[..|s| - 1]) else s
  }

  /** `s.trim()`: no white space at either end, and a contiguous part of `s`. */
  function Trim(s: string): (r: string)
    ensures |r| > 0 ==> !IsSpace(r[0]) && !IsSpace(r[|r| - 1])
    ensures Contains(s, r)
    ensures r == "" <==> forall i :: 0 <= i < |s| ==> IsSpace(s[i])
  {
    var t := TrimStart(s);
    var r := TrimEnd(t);
    assert s[|s| - |t| ..|s| - |t| + |r|] == r;
    AtContains(s, r, |s| - |t|);
    r
  }

  predicate IsDigit(c: char) { '0' <= c <= '9' }

  predicate AllDigits(s: string)
  {
    forall i :: 0 <= i < |s| ==> IsDigit(s[i])
  }

  function DigitChar(d: nat): (c: char)
    requires d < 10
    ensures IsDigit(c) && c as int - '0' as int == d
  {
    ('0' as int + d) as char
  }

  /** Decimal rendering of a non-negative integer (template `${n}`). */
  function NatToString(n: nat): (s: string)
    ensures |s| > 0 && AllDigits(s)
    ensures n >= 10 ==> s[0] != '0'
  {
    if n < 10 then [DigitChar(n)] else NatToString(n / 10) + [DigitChar(n % 10)]
  }

  /** `parseInt` of a run of decimal digits. */
  function ParseDigits(s: string): (n: nat)
    requires AllDigits(s)
  {
    if |s| == 0 then 0
    else ParseDigits(s[..|s| - 1]) * 10 + (s[|s| - 1] as int - '0' as int)
  }

  function Pow10(n: nat): (r: nat)
    ensures r >= 1
  {
    if n == 0 then 1 else 10 * Pow10(n - 1)
  }

  /** A run of `k` digits parses below `10^k`. */
  lemma {:induction false} ParseBound(s: string)
    requires AllDigits(s)
    ensures ParseDigits(s) < Pow10(|s|)
  {
    if |s| > 0 {
      ParseBound(s[..|s| - 1]);
    }
  }

  /** Parsing undoes rendering. */
  lemma {:induction false} ParseRender(n: nat)
    ensures ParseDigits(NatToString(n)) == n
  {
    var s := NatToString(n);
    if n >= 10 {
      assert s[..|s| - 1] == NatToString(n / 10);
      ParseRender(n / 10);
    }
  }

  /** Four-digit numbers render as four digits. */
  lemma FourDigits(n: nat)
    requires 1000 <= n <= 9999
    ensures |NatToString(n)| == 4
  {
    assert NatToString(n) == NatToString(n / 10) + [DigitChar(n % 10)];
    assert NatToString(n / 10) == NatToString(n / 100) + [DigitChar(n / 10 % 10)];
    assert NatToString(n / 100) == NatToString(n / 1000) + [DigitChar(n / 100 % 10)];
  }

  /** Rendering is injective: distinct numbers give distinct strings. */
  lemma RenderInjective(a: nat, b: nat)
    requires NatToString(a) == NatToString(b)
    ensures a == b
  {
    ParseRender(a);
    ParseRender(b);
  }
}

=== FILE: tmdb.dfy ===
/** Movie records from the metadata service and their conversion into
    the addon protocol's catalog entries, in both variants the repository
    carries: the strict one of scraper-safe.js (entries without an IMDb id
    are dropped) and the lenient one of scraper.js (a synthetic `tt<id>`
    is made up instead). */
module Tmdb {
  import opened Base
  import opened Text

  /** `TMDB_IMAGE_BASE` */
  const ImageBase: string := "https://image.tmdb.org/t/p/w500"
  /** The logo service's URL around an IMDb id. */
  const LogoPrefix: string := "https://images.metahub.space/logo/medium/"
  const LogoSuffix: string := "/img"

  datatype Genre = Genre(name: string)
  datatype ProductionCountry = ProductionCountry(iso3166: string)

  /** `/movie/{id}` with `external_ids` appended. A missing number is
      written 0, since both are falsy to the converters. */
  datatype Details = Details(
    id: nat,
    title: string,
    overview: Option<string>,
    posterPath: Option<string>,
    backdropPath: Option<string>,
    releaseDate: Option<string>,
    voteAverage: real,
    genres: Option<seq<Genre>>,
    runtime: int,
    productionCountries: Option<seq<ProductionCountry>>,
    externalImdbId: Option<string>)

  /** The record handed to the converter: the details with the IMDb id
      lifted out of `external_ids`, and the scraped site rating if any. */
  datatype Movie = Movie(details: Details, imdbId: Option<string>, filmtvRating: Option<real>)

  /** The text of a description, kept structured: the rating lines are
      present exactly when `rating` is, and the overview follows. */
  datatype Description = Description(rating: Option<real>, overview: string)

  /** One catalog entry as served to the client. */
  datatype Meta = Meta(
    id: string,
    kind: string,
    name: string,
    poster: Option<string>,
    posterShape: string,
    background: Option<string>,
    logo: Option<string>,
    description: Description,
    releaseInfo: Option<string>,
    imdbRating: Option<real>,
    genres: seq<string>,
    runtime: Option<int>,
    country: Option<string>,
    filmtvRating: Option<real>)

  /** A usable IMDb id: present and starting with `tt`. */
  predicate IsImdbId(s: Option<string>)
  {
    s.Some? && StartsWith(s.value, "tt")
  }

  /** `getMovieWithIMDB`: `imdb_id` becomes `external_ids.imdb_id || null`. */
  function WithImdb(d: Details): (m: Movie)
    ensures m.details == d && m.filmtvRating.None?
    ensures TruthyText(d.externalImdbId) ==> m.imdbId == d.externalImdbId
    ensures !TruthyText(d.externalImdbId) ==> m.imdbId.None?
  {
    Movie(d, if TruthyText(d.externalImdbId) then d.externalImdbId else None, None)
  }

  /** `if (filmtvRating) fullMovie.filmtvRating = filmtvRating`. */
  function WithRating(m: Movie, rating: Option<real>): (r: Movie)
    ensures r.details == m.details && r.imdbId == m.imdbId
    ensures r.filmtvRating == (if TruthyReal(rating) then rating else m.filmtvRating)
  {
    if TruthyReal(rating) then m.(filmtvRating := rating) else m
  }

  /** An image path turned into a URL, or null when the path is falsy. */
  function ImageUrl(path: Option<string>): (r: Option<string>)
    ensures r.None? <==> !TruthyText(path)
    ensures r.Some? ==> StartsWith(r.value, ImageBase) && r.value[|ImageBase|..] == path.value
  {
    if TruthyText(path) then Some(ImageBase + path.value) else None
  }

  function LogoUrl(imdbId: string): string
  {
    LogoPrefix + imdbId + LogoSuffix
  }

  /** Reads the IMDb id back out of a logo URL. */
  function LogoId(url: string): Option<string>
  {
    if |url| >= |LogoPrefix| + |LogoSuffix| && StartsWith(url, LogoPrefix)
       && url[|url| - |LogoSuffix|..] == LogoSuffix
    then Some(url[|LogoPrefix|..|url| - |LogoSuffix|])
    else None
  }

  /** The logo URL embeds the id it was built from, recoverably. */
  lemma LogoRoundTrip(imdbId: string)
    ensures LogoId(LogoUrl(imdbId)) == Some(imdbId)
  {
    var url := LogoUrl(imdbId);
    assert url[..|LogoPrefix|] == LogoPrefix;
    assert url[|url| - |LogoSuffix|..] == LogoSuffix;
    assert url[|LogoPrefix|..|url| - |LogoSuffix|] == imdbId;
  }

  /** `release_date.split('-')[0]`: the year part of the date, or null. */
  function ReleaseInfo(date: Option<string>): (r: Option<string>)
    ensures r.None? <==> !TruthyText(date)
    ensures r.Some? ==> '-' !in r.value && StartsWith(date.value, r.value)
    ensures r.Some? ==> |r.value| == |date.value| || date.value[|r.value|] == '-'
  {
    if TruthyText(date) then Some(TakeUntil(date.value, '-')) else None
  }

  /** `genres.map(g => g.name)`, or `[]` when there are no genres. */
  function GenreNames(gs: Option<seq<Genre>>): (r: seq<string>)
    ensures gs.None? ==> r == []
    ensures gs.Some? ==> |r| == |gs.value| && forall i :: 0 <= i < |r| ==> r[i] == gs.value[i].name
  {
    if gs.None? then [] else seq(|gs.value|, i requires 0 <= i < |gs.value| => gs.value[i].name)
  }

  /** The first production country's code, or null for a missing or
      empty list. */
  function Country(pcs: Option<seq<ProductionCountry>>): (r: Option<string>)
    ensures r.Some? <==> pcs.Some? && |pcs.value| > 0
    ensures r.Some? ==> r.value == pcs.value[0].iso3166
  {
    if pcs.Some? && |pcs.value| > 0 then Some(pcs.value[0].iso3166) else None
  }

  /** The fields both converters fill in the same way. */
  function Render(m: Movie, id: string, logo: Option<string>, description: Description, rating: Option<real>): Meta
  {
    var d := m.details;
    Meta(id, "movie", d.title, ImageUrl(d.posterPath), "poster", ImageUrl(d.backdropPath), logo,
         description, ReleaseInfo(d.releaseDate),
         if d.voteAverage != 0.0 then Some(d.voteAverage) else None,
         GenreNames(d.genres),
         if d.runtime != 0 then Some(d.runtime) else None,
         Country(d.productionCountries), rating)
  }

  /** `overview || ''` */
  function OverviewText(d: Details): (r: string)
    ensures TruthyText(d.overview) ==> r == d.overview.value
    ensures !TruthyText(d.overview) ==> r == ""
  {
    if d.overview.Some? then d.overview.value else ""
  }

  /** `convertTMDBToStremio` of scraper-safe.js: a movie without an id
      starting with `tt` is discarded; otherwise the entry carries that
      id, a logo URL built from it, and the site rating (when truthy) in
      both the description and its own field. */
  function ConvertSafe(m: Movie): (r: Option<Meta>)
    ensures r.Some? <==> IsImdbId(m.imdbId)
    ensures r.Some? ==> r.value.id == m.imdbId.value && StartsWith(r.value.id, "tt")
    ensures r.Some? ==> r.value.logo.Some? && LogoId(r.value.logo.value) == Some(r.value.id)
    ensures r.Some? ==> r.value.kind == "movie" && r.value.name == m.details.title
    ensures r.Some? ==> r.value.poster == ImageUrl(m.details.posterPath)
                        && r.value.background == ImageUrl(m.details.backdropPath)
    ensures r.Some? ==> r.value.description.rating.Some? == TruthyReal(m.filmtvRating)
                        && r.value.filmtvRating.Some? == TruthyReal(m.filmtvRating)
    ensures r.Some? && TruthyReal(m.filmtvRating) ==>
              r.value.description.rating == m.filmtvRating == r.value.filmtvRating
  {
    if !IsImdbId(m.imdbId) then None
    else
      var id := m.imdbId.value;
      var rating := if TruthyReal(m.filmtvRating) then m.filmtvRating else None;
      LogoRoundTrip(id);
      Some(Render(m, id, Some(LogoUrl(id)), Description(rating, OverviewText(m.details)), rating))
  }

  /** The id scraper.js falls back to: `tt` followed by the numeric id. */
  function SyntheticId(tmdbId: nat): string
  {
    "tt" + NatToString(tmdbId)
  }

  /** The synthetic id starts with `tt` and the numeric id can be read
      back from it. */
  lemma SyntheticIdRoundTrip(tmdbId: nat)
    ensures StartsWith(SyntheticId(tmdbId), "tt")
    ensures AllDigits(SyntheticId(tmdbId)[2..])
    ensures ParseDigits(SyntheticId(tmdbId)[2..]) == tmdbId
  {
    assert SyntheticId(tmdbId)[2..] == NatToString(tmdbId);
    ParseRender(tmdbId);
  }

  /** `convertTMDBToStremio` of scraper.js: never discards; the id is the
      IMDb id when truthy and the synthetic one otherwise; the logo is the
      poster; the description is the bare overview. */
  function ConvertSimple(m: Movie): (r: Meta)
    ensures TruthyText(m.imdbId) ==> r.id == m.imdbId.value
    ensures !TruthyText(m.imdbId) ==>
              StartsWith(r.id, "tt") && AllDigits(r.id[2..]) && ParseDigits(r.id[2..]) == m.details.id
    ensures r.poster.None? <==> !TruthyText(m.details.posterPath)
    ensures r.logo == r.poster
    ensures r.poster == ImageUrl(m.details.posterPath)
    ensures r.background.None? <==> !TruthyText(m.details.backdropPath)
    ensures r.background == ImageUrl(m.details.backdropPath)
    ensures r.description == Description(None, OverviewText(m.details)) && r.filmtvRating.None?
    ensures r.releaseInfo == ReleaseInfo(m.details.releaseDate) && r.genres == GenreNames(m.details.genres)
            && r.country == Country(m.details.productionCountries)
  {
    var id := if TruthyText(m.imdbId) then m.imdbId.value else SyntheticId(m.details.id);
    SyntheticIdRoundTrip(m.details.id);
    var poster := ImageUrl(m.details.posterPath);
    Render(m, id, poster, Description(None, OverviewText(m.details)), None)
  }

  /** On a movie with a proper IMDb id the two variants agree on every
      field except the logo, the description and the site rating. */
  lemma VariantsAgree(m: Movie)
    requires IsImdbId(m.imdbId)
    ensures var s := ConvertSafe(m).value;
            var t := ConvertSimple(m);
            s.id == t.id && s.name == t.name && s.poster == t.poster && s.background == t.background
            && s.releaseInfo == t.releaseInfo && s.imdbRating == t.imdbRating && s.genres == t.genres
            && s.runtime == t.runtime && s.country == t.country
  {
  }
}
